=== FILE: README.md ===
# dotnet-gitignore, modelled in Dafny

`dotnet-gitignore` is a .NET global tool. It downloads a `.gitignore`
template from the github/gitignore repository into the current or a given
directory. It can also list the available templates, filtered by a simple
wildcard pattern or a regular expression. The repository holds two versions
of the tool: the current one under `src/` and an older one at the root. This
project models the core of both:

- **the wildcard filter** `WhereGitFileMatches`. It splits a pattern such as
  `ab*`, `a*b`, `*bc` or `*b*` into a containment test or a prefix/suffix
  test. A pattern without a star, such as `abc`, becomes a test that the path
  starts with it and the name ends with it. Any other placement of stars is rejected with
  a format error, and an empty pattern fails with an index error
  (`wildcard.dfy`, `legacy_wildcard.dfy`, `patterns.dfy`);
- **the template listing** `GetAvailableTemplates`. It keeps the `.gitignore`
  entries of the repository tree, filters them by regex or wildcard, and
  returns the template names (`github_api.dfy`, `legacy_github_api.dfy`);
- **the download command** `OnExecuteAsync`. It checks the output location,
  resolves the template name against the listing, downloads it into a cache
  (falling back to the cached copy on some failures), promotes the download
  to the stable cache file, and copies or appends it to the output
  `.gitignore` (`gitignore_command.dfy`, `legacy_program.dfy`, `cache.dfy`).

Supporting modules:

- `text.dfy` gives the .NET string operations the code relies on. These are
  `IndexOf` and `LastIndexOf` returning -1, `TrimStart`/`TrimEnd`, `Replace`
  (removing every occurrence in one left-to-right scan), `IsNullOrWhiteSpace`,
  and case-insensitive comparison.
- `seqs.dfy` gives LINQ `Where`/`Select` as `Filter`/`Map`. `Filter` is
  pinned down by a subsequence and multiset contract.
- `gitfile.dfy` gives the `.gitignore` suffix, the template name of a path,
  and the predicate `Lists`. `Lists` says a listing is exactly the names of
  the selected template files, in tree order, each as often as in the tree.
- `filesystem.dfy` is an abstract file system. A set of locked paths stands
  for the files whose writes throw `IOException`.
- `transport.dfy` holds the outcomes of a download and the result of a run.
  A run's result is its exit code, a reason standing for the message
  printed, and the file system afterwards.

The network is not modelled. The repository tree, the download outcome and
the regex engine are parameters:

- the regex engine is a function that returns `None` when `new Regex(...)`
  throws, or the compiled `IsMatch` test;
- the cache directory is a parameter.

A `null` string is `None` of an `Option<string>`.

## Model

| member | source | states |
|---|---|---|
| Wildcard.Parse | src/Mescher.DotNet.Cli.GitIgnore/IEnumerableExtensions.cs:19-61 | an empty pattern fails with an index error; a pattern wrapped in stars is a containment test exactly when no star remains inside, and the text is the pattern without its edge stars; otherwise a pattern with two or more stars is rejected with the "simple patterns" message; with one star it splits around it into star-free halves; with none both halves are the whole pattern |
| Wildcard.WhereGitFileMatches | src/Mescher.DotNet.Cli.GitIgnore/IEnumerableExtensions.cs:19-70 | the filter fails exactly when the pattern is rejected; otherwise the result keeps the accepted paths in their order, each as often as in the input, and nothing else |
| Wildcard.ContainsPattern | src/Mescher.DotNet.Cli.GitIgnore/IEnumerableExtensions.cs:25-35 | `*text*` (any number of edge stars) keeps exactly the paths whose name without ".gitignore" contains the text, case-sensitively |
| Wildcard.StarsKeepEverything | src/Mescher.DotNet.Cli.GitIgnore/IEnumerableExtensions.cs:25-35 | a pattern made only of stars keeps every path unchanged |
| Wildcard.SingleWildcard | src/Mescher.DotNet.Cli.GitIgnore/IEnumerableExtensions.cs:38-65 | `a*b` keeps exactly the paths starting with `a` whose name ends with `b`, ignoring case |
| Wildcard.NoWildcard | src/Mescher.DotNet.Cli.GitIgnore/IEnumerableExtensions.cs:47-65 | a pattern with no star must be both a prefix of the path and a suffix of its name, ignoring case |
| Text.FirstIsLastIffAtMostOnce | src/Mescher.DotNet.Cli.GitIgnore/IEnumerableExtensions.cs:40-44 | the first and last index of a character agree exactly when it occurs at most once, which is the multiple-star test |
| Patterns.TrimmedStarIffInnerStar | src/Mescher.DotNet.Cli.GitIgnore/IEnumerableExtensions.cs:28-32 | after trimming the edge stars a star remains exactly when the pattern has a star between two non-star characters, and otherwise the trimmed text is what the edge stars surround |
| LegacyWildcard.Parse | Mescher.DotNet.Cli.GitIgnore/IEnumerableExtensions.cs:9-42 | the same acceptance and errors as the current filter, with the prefix and suffix halves taken from the lower-cased pattern |
| LegacyWildcard.WhereGitFileMatches | Mescher.DotNet.Cli.GitIgnore/IEnumerableExtensions.cs:9-49 | fails exactly when the pattern is rejected; otherwise keeps the accepted paths in order with their multiplicities |
| LegacyWildcard.AgreesWithCurrent | Mescher.DotNet.Cli.GitIgnore/IEnumerableExtensions.cs:32-45 | lower-casing both sides and comparing ordinally selects the same files as the current case-insensitive comparison, so the two filters agree on every pattern and list |
| GitFile.BodyOfTemplateName | src/Mescher.DotNet.Cli.GitIgnore/GitHubApiService.cs:58 | a dot-free name with ".gitignore" appended is a template path whose listed name is the name again |
| GitHubApi.TemplateNames | src/Mescher.DotNet.Cli.GitIgnore/GitHubApiService.cs:35-58 | with no search, the listing is every tree entry ending in ".gitignore", in order, with every ".gitignore" removed |
| GitHubApi.AvailableTemplates | src/Mescher.DotNet.Cli.GitIgnore/GitHubApiService.cs:29-59 | a null, empty or white-space search lists every template; a regex search fails when the regex is invalid, else lists the templates it matches; a wildcard search fails as the filter does, else lists the templates it keeps |
| GitHubApi.ListingBounded | src/Mescher.DotNet.Cli.GitIgnore/GitHubApiService.cs:35-58 | any listing has at most one line per tree entry and every line names a template file of the tree |
| GitHubApi.BlankSearchListsAll | src/Mescher.DotNet.Cli.GitIgnore/GitHubApiService.cs:41 | a blank search succeeds and lists the name of every template file |
| LegacyGitHubApi.AvailableTemplates | Mescher.DotNet.Cli.GitIgnore/GitHubApiService.cs:17-38 | every search goes to the regex or the wildcard filter, even an empty one; the names are indented by four spaces |
| LegacyGitHubApi.DefaultListingFails | Mescher.DotNet.Cli.GitIgnore/GitHubApiService.cs:18-34 | the default (empty) search always fails with an index error, whatever the tree |
| LegacyGitHubApi.AgreesWithCurrent | Mescher.DotNet.Cli.GitIgnore/GitHubApiService.cs:22-37 | for a non-blank search the old listing is the current listing with each line indented, and both fail alike |
| CacheStore.Promote | src/Mescher.DotNet.Cli.GitIgnore/GitIgnoreCommand.cs:184-198 | promotion touches only the cache and temporary files; when neither is locked the cache file ends with the downloaded lines and the temporary file is gone; a locked cache file leaves everything as it was; failures are swallowed |
| GitIgnoreCommand.ResolveTemplate | src/Mescher.DotNet.Cli.GitIgnore/GitIgnoreCommand.cs:82-104 | a blank template selects VisualStudio.gitignore; otherwise the request, with every ".gitignore" removed when it ends with one, is not found exactly when no listed name equals it ignoring case, and else the first such name, with ".gitignore" appended, is chosen |
| GitIgnoreCommand.ResolvedTemplateListedAgain | src/Mescher.DotNet.Cli.GitIgnore/GitIgnoreCommand.cs:82-103 | the file to download is a template file whose name is "VisualStudio" for a blank template and otherwise a listed name equal to the request ignoring case, when listed names contain no dot |
| GitIgnoreCommand.Run | src/Mescher.DotNet.Cli.GitIgnore/GitIgnoreCommand.cs:48-222 | the exit code is 0 or 1; only the output and cache directories may be created; no file outside the cache directory other than the output `.gitignore` changes |
| GitIgnoreCommand.Fetch | src/Mescher.DotNet.Cli.GitIgnore/GitIgnoreCommand.cs:106-222 | only the output, the cache file, the temporary file and `.gitignore` in the cache directory can change; a connection or status failure can change only the output; an `IOException` (including a download into a locked temporary file) exits 1 and can change only `.gitignore` in the cache directory; success needs a fresh download into an unlocked temporary file, or a connection failure or request exception with a cache file present |
| GitIgnoreCommand.FallbackAsWritten | src/Mescher.DotNet.Cli.GitIgnore/GitIgnoreCommand.cs:132-149 | after a cache write failure the second download is saved as `.gitignore` in the cache directory when that can be written, nothing else changes, and the exit code is 1 either way |
| GitIgnoreCommand.Fallback | src/Mescher.DotNet.Cli.GitIgnore/GitIgnoreCommand.cs:134-142 | corrected: the second download goes to the output `.gitignore` that the comment at line 134 names, when it can be written, and the exit code is 1 either way, as at line 142 |
| GitIgnoreCommand.FallbackMissesOutput | src/Mescher.DotNet.Cli.GitIgnore/GitIgnoreCommand.cs:134-142 | as written, a successful second download leaves the output `.gitignore` untouched and writes `.gitignore` in the cache directory; the corrected fallback writes the output instead |
| GitIgnoreCommand.Install | src/Mescher.DotNet.Cli.GitIgnore/GitIgnoreCommand.cs:200-222 | appending succeeds when the cache file exists and the output can be written, and leaves the old lines followed by the cached ones; copying succeeds when the copy is allowed (overwrite only with force) and leaves the cached lines; any failure exits 1 with nothing changed |
| GitIgnoreCommand.VersionOnly | src/Mescher.DotNet.Cli.GitIgnore/GitIgnoreCommand.cs:51-55 | `--version` exits 0 and changes nothing |
| GitIgnoreCommand.OutputDirectoryCheck | src/Mescher.DotNet.Cli.GitIgnore/GitIgnoreCommand.cs:59-70 | a missing output directory is an error without `--force` and is created with it |
| GitIgnoreCommand.ExistingOutputRefused | src/Mescher.DotNet.Cli.GitIgnore/GitIgnoreCommand.cs:72-78 | an existing `.gitignore` without `--force` or `--append` exits 1 before anything is created or downloaded |
| GitIgnoreCommand.UnknownTemplateNotDownloaded | src/Mescher.DotNet.Cli.GitIgnore/GitIgnoreCommand.cs:93-101 | a template missing from the listing exits 1 whatever the download would have done |
| GitIgnoreCommand.ReachesFetch | src/Mescher.DotNet.Cli.GitIgnore/GitIgnoreCommand.cs:57-112 | when every check passes, the run is the download step for the resolved template on the prepared directories |
| GitIgnoreCommand.CacheChangesOnlyAfterDownload | src/Mescher.DotNet.Cli.GitIgnore/GitIgnoreCommand.cs:106-198 | without a successful download no file in the cache directory changes, except `.gitignore` there, which only an `IOException` followed by a successful second download can change, to that download's lines |
| GitIgnoreCommand.CacheFailureLeavesOutput | src/Mescher.DotNet.Cli.GitIgnore/GitIgnoreCommand.cs:132-149 | an `IOException` while caching exits 1 with the output unchanged; a successful second download lands in `.gitignore` in the cache directory when that is writable; a failed one changes nothing |
| GitIgnoreCommand.FreshDownloadPromoted | src/Mescher.DotNet.Cli.GitIgnore/GitIgnoreCommand.cs:109-208 | a fresh download ends in the stable cache file with the temporary file gone; the run succeeds exactly when the output can be written, and the output then holds the downloaded lines (after the old ones with `--append`) |
| GitIgnoreCommand.UnreachableServerUsesCache | src/Mescher.DotNet.Cli.GitIgnore/GitIgnoreCommand.cs:115-164 | a `WebException` or an incomplete Flurl call installs the existing cache file, and without one exits 1 having written nothing |
| GitIgnoreCommand.HttpRequestFailureFallsThrough | src/Mescher.DotNet.Cli.GitIgnore/GitIgnoreCommand.cs:128-131 | the empty `HttpRequestException` handler continues like a `WebException` when a cache file exists, and otherwise fails at the install |
| GitIgnoreCommand.CompletedCallFails | src/Mescher.DotNet.Cli.GitIgnore/GitIgnoreCommand.cs:165-176 | a completed call with an error exits 1 without touching the cache; it reports "not found" exactly for status 404, a missing response counting as 500 |
| GitIgnoreCommand.SuccessfulRunInstalls | src/Mescher.DotNet.Cli.GitIgnore/GitIgnoreCommand.cs:184-222 | a successful run passed every check, used a fresh download into an unlocked temporary file or a surviving cache file, and left the output holding the final cache file's lines (after the old ones with `--append`) |
| LegacyProgram.Run | Mescher.DotNet.Cli.GitIgnore/Program.cs:29-144 | the exit code is 0 or 1; only the output and cache directories may be created; no file outside the cache directory other than the output `.gitignore` changes |
| LegacyProgram.Finish | Mescher.DotNet.Cli.GitIgnore/Program.cs:124-143 | an existing output without `--force` exits 1; otherwise the cache file is copied over it, and on success the output holds the cached lines |
| LegacyProgram.MissingDirectoryStopsEarly | Mescher.DotNet.Cli.GitIgnore/Program.cs:33-44 | a missing output directory without `--force` exits 1 whatever the download would have done |
| LegacyProgram.CacheChangesOnlyAfterDownload | Mescher.DotNet.Cli.GitIgnore/Program.cs:52-122 | no file in the cache directory changes unless the download succeeded |
| LegacyProgram.ConnectionFailuresAgree | Mescher.DotNet.Cli.GitIgnore/Program.cs:58-83 | `WebException` and `HttpRequestException` lead to the same result |
| LegacyProgram.ConnectionFailureUsesCache | Mescher.DotNet.Cli.GitIgnore/Program.cs:58-143 | after a connection failure with a cache file present the run goes on to the output check and copy of that file, succeeding exactly when the output is absent (or `--force`) and writable, and then the output holds the cached lines; without a cache file the run exits 1 having written nothing |
| LegacyProgram.ExistingOutputAfterRefresh | Mescher.DotNet.Cli.GitIgnore/Program.cs:108-128 | with an existing output and no `--force`, a download still refreshes the cache file before the run exits 1, and the output is untouched |
| LegacyProgram.SuccessfulRunCopies | Mescher.DotNet.Cli.GitIgnore/Program.cs:108-143 | a successful run had no output in the way (or `--force`), used a fresh download into an unlocked temporary file or a cache file that survived a connection failure, and left the output equal to the final cache file |

## Left out

- The HTTP calls (the GitHub tree request and the template downloads) are not modelled. The tree, the download outcome and the second download after an `IOException` are inputs.
- The JSON types of the tree response (`GitTreeResponse`, `GitFile`) are reduced to the list of paths.
- `new Regex` and `IsMatch` are a parameter; .NET regular expressions are not modelled.
- Console output, help text and the argument parser are not modelled. Each message printed is a `Reason`.
- `PrintVersion` is not modelled: reading the assembly version is outside the model.
- `Path.GetFullPath`, the user profile directory and `Path.Combine` are not modelled. The output directory arrives resolved, the cache directory is a parameter, and a file is a directory plus a name.
- Async execution and cancellation tokens are not modelled; every call completes in order.
- `ToLower` and `OrdinalIgnoreCase` are modelled by ASCII case folding. Culture-specific and non-ASCII casing are not modelled.
- The one-argument `EndsWith(".gitignore")` (in both listings and in the template resolution) and the older filter's `ToLower().StartsWith`/`EndsWith` compare with the current culture. That linguistic comparison, with its ignorable characters, is approximated by char-by-char comparison.
- A download outcome and the lock set are independent inputs. A successful download into a locked temporary file is read as the `IOException` that the write would throw, and the second download is taken to fetch the same lines.
- A file's content is its list of lines, so `File.Copy`'s byte-exact copy and the line breaks written by `AppendAllLines` are not distinguished.
- GitIgnoreCommand.Install: appending adds the cached lines after the output's lines only when the existing output ends with a line break. When it does not, `File.AppendAllLines` joins the output's last line and the first cached line into one line, which the line-list model does not show.
- A failed download is taken to leave the file it writes unchanged. In fact `WebClient` creates or truncates the older program's `_.gitignore` before it sends the request, and Flurl truncates its target once the response headers arrive, so a failed transfer can leave an empty or partial file behind. The three statements below rest on this. The current program's stable cache file, named after the template, changes only through `Promote`. So a partial file reaches it only after an `HttpRequestException`, whose empty handler falls through to promotion; the model promotes the unchanged temporary file there instead.
- GitIgnoreCommand.Fetch: its frame (after a failure only the output, or after an `IOException` only the cache's `.gitignore`, may change) does not cover a truncated temporary file `_<template>` or a truncated `.gitignore` left by a failed retry.
- GitIgnoreCommand.CacheChangesOnlyAfterDownload: the temporary file of a failed download is taken to be unchanged, and so is the cache's `.gitignore` when the retry fails.
- LegacyProgram.CacheChangesOnlyAfterDownload: "no cache file changes" leaves out the empty `_.gitignore` that `WebClient` creates before a connection failure.
- `Directory.CreateDirectory` is modelled as always succeeding.
- The tree request made by `ResolveTemplate` is not modelled. Its failure is not caught by the command, so it would end the process.
- LegacyWildcard.Parse: a `null` pattern, which throws before the first index, is not modelled. The listing commands always pass a string.
- LegacyProgram.Run: the fallback after an `IOException` targets the output directory's own path. It is modelled as failing, as writing a file over an existing directory does, and the second download's outcome is ignored.
- LegacyProgram.Run: outcomes that only a Flurl download produces reach the generic handler, because the older program downloads with `WebClient`.

## Findings

| source | as written | input that shows it | evidently intended | confidence | as-written member | corrected member |
|---|---|---|---|---|---|---|
| Mescher.DotNet.Cli.GitIgnore/GitHubApiService.cs:18-34 | the default empty search is passed to the wildcard filter, which reads its first character | `templates list` with no argument (search pattern `""`): `searchPattern[0]` is out of range, so the listing always fails and exits 1 | an empty search lists every template, as in the current version, which guards with `IsNullOrWhiteSpace` | high; not executed | LegacyGitHubApi.DefaultListingFails | GitHubApi.AvailableTemplates |
| src/Mescher.DotNet.Cli.GitIgnore/GitIgnoreCommand.cs:139 | after a cache write failure the second download is saved as `.gitignore` in the cache directory | the temporary cache file is locked, so the first download throws `IOException`, and the second download succeeds: the output `.gitignore` is never written | the comment at line 134 says the file is downloaded "directly to the output", so the target is the output `.gitignore` | medium; not executed | GitIgnoreCommand.FallbackMissesOutput | GitIgnoreCommand.Fallback |

=== FILE: cache.dfy ===
/** The template cache: a download lands in a temporary file, and only then
    replaces the stable cache file. */
module CacheStore {
  import opened Wrappers
  import opened FileSystem

  /** The temporary file a download is written to. */
  function TempFile(cacheDir: string, name: string): (p: FilePath)
    ensures p.dir == cacheDir && p != FilePath(cacheDir, name)
  {
    FilePath(cacheDir, "_" + name)
  }

  /** Replace the stable cache file by the downloaded temporary file: delete
      the old cache file if there is one, then move the temporary file into
      its place. Any exception is swallowed, leaving whatever state the
      failing step left behind. */
  function Promote(fs: Fs, cache: FilePath, temp: FilePath): (r: Fs)
    requires cache != temp
    ensures SameExcept(fs, r, {cache, temp})
    ensures cache in fs.files && cache in fs.locked ==> r == fs
    ensures temp in fs.files && cache !in fs.locked && temp !in fs.locked ==>
              Get(r, cache) == Get(fs, temp) && Get(r, temp) == None
    ensures Get(r, cache) == Get(fs, cache)
            || Get(r, cache) == None
            || (Get(r, cache) == Get(fs, temp) && Get(r, temp) == None)
    ensures Get(r, temp) == Get(fs, temp) || Get(r, cache) == Get(fs, temp)
  {
    var cleared := if cache in fs.files then Delete(fs, cache) else Some(fs);
    match cleared
    case None => fs
    case Some(fs1) =>
      match Move(fs1, temp, cache)
      case None => fs1
      case Some(fs2) => fs2
  }
}

=== FILE: filesystem.dfy ===
/** An abstract file system: directories, text files as sequences of lines,
    and a set of files the process may read but not replace, delete or move
    (standing for permission errors and sharing violations). Each operation
    mirrors the `System.IO.File` call of the same name; `None` is the
    `IOException` (or other I/O exception) that call throws. */
module FileSystem {
  import opened Wrappers

  datatype FilePath = FilePath(dir: string, name: string)

  datatype Fs = Fs(dirs: set<string>, files: map<FilePath, seq<string>>, locked: set<FilePath>)

  /** The lines of a file, or `None` when there is no such file. */
  function Get(fs: Fs, p: FilePath): Option<seq<string>> {
    if p in fs.files then Some(fs.files[p]) else None
  }

  /** `fs'` differs from `fs` at most in the contents of the files `changed`. */
  ghost predicate SameExcept(fs: Fs, fs': Fs, changed: set<FilePath>) {
    && fs'.dirs == fs.dirs
    && fs'.locked == fs.locked
    && forall q :: q !in changed ==> Get(fs', q) == Get(fs, q)
  }

  /** `Directory.CreateDirectory`; creating one that exists changes nothing. */
  function CreateDirectory(fs: Fs, d: string): (r: Fs)
    ensures d in r.dirs && r.dirs - {d} == fs.dirs - {d}
    ensures r.files == fs.files && r.locked == fs.locked
  {
    fs.(dirs := fs.dirs + {d})
  }

  /** A completed download: the file is created or replaced. */
  function Write(fs: Fs, p: FilePath, lines: seq<string>): (r: Fs)
    ensures Get(r, p) == Some(lines)
    ensures SameExcept(fs, r, {p})
  {
    fs.(files := fs.files[p := lines])
  }

  /** `File.Delete`: a missing file is no error; a locked one is. */
  function Delete(fs: Fs, p: FilePath): (r: Option<Fs>)
    ensures r.None? <==> p in fs.locked
    ensures r.Some? ==> Get(r.value, p) == None && SameExcept(fs, r.value, {p})
  {
    if p in fs.locked then None else Some(fs.(files := fs.files - {p}))
  }

  /** `File.Move`: fails when the source is missing, the destination
      exists, or either is locked. */
  function Move(fs: Fs, src: FilePath, dst: FilePath): (r: Option<Fs>)
    ensures r.Some? <==> src in fs.files && dst !in fs.files && src !in fs.locked && dst !in fs.locked
    ensures r.Some? ==> Get(r.value, dst) == Get(fs, src) && Get(r.value, src) == None
    ensures r.Some? ==> SameExcept(fs, r.value, {src, dst})
  {
    if src !in fs.files || dst in fs.files || src in fs.locked || dst in fs.locked then None
    else Some(fs.(files := (fs.files - {src})[dst := fs.files[src]]))
  }

  /** `File.Copy(src, dst, overwrite)`: fails when the source is missing, the
      destination directory is missing, the destination exists and
      `overwrite` is false, the destination is locked, or both are the same
      file. */
  function Copy(fs: Fs, src: FilePath, dst: FilePath, overwrite: bool): (r: Option<Fs>)
    ensures r.Some? <==>
              && src in fs.files && dst.dir in fs.dirs && (overwrite || dst !in fs.files)
              && dst !in fs.locked && src != dst
    ensures r.Some? ==> Get(r.value, dst) == Get(fs, src) && SameExcept(fs, r.value, {dst})
  {
    if src !in fs.files || dst.dir !in fs.dirs || (dst in fs.files && !overwrite) || dst in fs.locked || src == dst
    then None
    else Some(fs.(files := fs.files[dst := fs.files[src]]))
  }

  /** `File.ReadAllLines`: fails when the file is missing. */
  function ReadAllLines(fs: Fs, p: FilePath): Option<seq<string>> {
    Get(fs, p)
  }

  /** `File.AppendAllLines`: creates the file when missing, then adds the
      lines after the existing ones. */
  function AppendAllLines(fs: Fs, p: FilePath, lines: seq<string>): (r: Option<Fs>)
    ensures r.Some? <==> p.dir in fs.dirs && p !in fs.locked
    ensures r.Some? ==> Get(r.value, p) == Some(Get(fs, p).GetOr([]) + lines)
    ensures r.Some? ==> SameExcept(fs, r.value, {p})
  {
    if p.dir !in fs.dirs || p in fs.locked then None
    else Some(fs.(files := fs.files[p := Get(fs, p).GetOr([]) + lines]))
  }
}

=== FILE: gitfile.dfy ===
/** Entries of the remote template listing. Only a file's path matters: a
    template is a path ending in ".gitignore", and its name (the "body") is
    the path with every ".gitignore" removed. */
module GitFile {
  import opened Text
  import opened Seqs

  const Extension := ".gitignore"

  predicate IsTemplateFile(path: string) {
    EndsWith(path, Extension)
  }

  /** `path.Replace(".gitignore", string.Empty)`. */
  function Body(path: string): (r: string)
    ensures |r| <= |path|
  {
    RemoveAll(path, Extension)
  }

  /** The name of a template file: removing ".gitignore" from
      `name + ".gitignore"` gives back `name` when the name has no dot. */
  lemma {:induction false} BodyOfTemplateName(name: string)
    requires forall i :: 0 <= i < |name| ==> name[i] != '.'
    ensures IsTemplateFile(name + Extension)
    ensures Body(name + Extension) == name
  {
    var s := name + Extension;
    assert s[|name|..] == Extension;
    if |name| == 0 {
      assert s[..|Extension|] == Extension;
      assert s[|Extension|..] == [];
    } else {
      assert s[..|Extension|][0] == name[0] != '.';
      assert s[1..] == name[1..] + Extension;
      BodyOfTemplateName(name[1..]);
      assert s == [s[0]] + s[1..];
    }
  }

  /** `files` is the listing `tree` restricted to the template files that
      `keep` accepts: in listing order, each exactly as often as in `tree`. */
  ghost predicate Selects(tree: seq<string>, files: seq<string>, keep: string -> bool) {
    && IsSubsequence(files, tree)
    && forall x :: multiset(files)[x] == if IsTemplateFile(x) && keep(x) then multiset(tree)[x] else 0
  }

  /** `names` renders, one line per file, the selection of `tree` by `keep`. */
  ghost predicate Lists(tree: seq<string>, names: seq<string>, keep: string -> bool, render: string -> string) {
    exists files :: Selects(tree, files, keep) && names == Map(files, render)
  }

  /** What a listing contains: at most one line per entry, each line the
      rendering of an accepted template file of the tree, and every accepted
      template file rendered. */
  lemma ListsContents(tree: seq<string>, names: seq<string>, keep: string -> bool, render: string -> string)
    requires Lists(tree, names, keep, render)
    ensures |names| <= |tree|
    ensures forall i :: 0 <= i < |names| ==>
              exists path :: path in tree && IsTemplateFile(path) && keep(path) && names[i] == render(path)
    ensures forall path :: path in tree && IsTemplateFile(path) && keep(path) ==> render(path) in names
  {
    var files :| Selects(tree, files, keep) && names == Map(files, render);
    SubsequenceLength(files, tree);
    forall i | 0 <= i < |names|
      ensures exists path :: path in tree && IsTemplateFile(path) && keep(path) && names[i] == render(path)
    {
      var x := files[i];
      assert multiset(files)[x] > 0;
    }
    forall path | path in tree && IsTemplateFile(path) && keep(path)
      ensures render(path) in names
    {
      assert multiset(files)[path] == multiset(tree)[path] > 0;
      var i :| 0 <= i < |files| && files[i] == path;
      assert names[i] == render(path);
    }
  }

  /** Filtering the template files of a tree further by `keep` selects
      from the tree by `keep`. */
  lemma FilterTemplateFiles(tree: seq<string>, keep: string -> bool, kept: seq<string>)
    requires IsSubsequence(kept, Filter(tree, IsTemplateFile))
    requires forall x :: multiset(kept)[x] == if keep(x) then multiset(Filter(tree, IsTemplateFile))[x] else 0
    ensures Selects(tree, kept, keep)
  {
    SubsequenceTransitive(kept, Filter(tree, IsTemplateFile), tree);
  }
}

=== FILE: github_api.dfy ===
/** The pure part of `GitHubApiService.GetAvailableTemplates` (current
    version): everything after the listing has been fetched. The fetched tree
    is an input; the regular-expression engine is a parameter. */
module GitHubApi {
  import opened Wrappers
  import opened Text
  import opened Seqs
  import opened GitFile
  import opened Patterns
  import Wildcard

  /** `new Regex(pattern)`: `None` when the engine rejects the pattern, else
      the compiled `IsMatch` test. */
  type RegexEngine = string -> Option<string -> bool>

  /** The listing with no search pattern: every template name. */
  function TemplateNames(tree: seq<string>): (names: seq<string>)
    ensures Lists(tree, names, _ => true, Body)
  {
    var files := Filter(tree, IsTemplateFile);
    assert Selects(tree, files, _ => true);
    Map(files, Body)
  }

  /** Keep the ".gitignore" entries; when the pattern is not blank filter
      them by regex or by wildcard; return the names. */
  function AvailableTemplates(tree: seq<string>, searchPattern: Option<string>, isRegex: bool, regex: RegexEngine)
    : (r: Result<seq<string>, PatternError>)
    ensures IsNullOrWhiteSpace(searchPattern) ==> r == Ok(TemplateNames(tree))
    ensures !IsNullOrWhiteSpace(searchPattern) && isRegex ==>
              match regex(searchPattern.value)
              case None => r == Err(InvalidRegex)
              case Some(isMatch) => r.Ok? && Lists(tree, r.value, isMatch, Body)
    ensures !IsNullOrWhiteSpace(searchPattern) && !isRegex ==>
              match Wildcard.Parse(searchPattern.value)
              case Err(e) => r == Err(e)
              case Ok(m) => r.Ok? && Lists(tree, r.value, path => Wildcard.Keeps(m, path), Body)
  {
    var files := Filter(tree, IsTemplateFile);
    if IsNullOrWhiteSpace(searchPattern) then Ok(Map(files, Body))
    else if isRegex then
      match regex(searchPattern.value)
      case None => Err(InvalidRegex)
      case Some(isMatch) =>
        var kept := Filter(files, isMatch);
        FilterTemplateFiles(tree, isMatch, kept);
        Ok(Map(kept, Body))
    else
      match Wildcard.WhereGitFileMatches(files, searchPattern.value)
      case Err(e) => Err(e)
      case Ok(kept) =>
        FilterTemplateFiles(tree, path => Wildcard.Keeps(Wildcard.Parse(searchPattern.value).value, path), kept);
        Ok(Map(kept, Body))
  }

  /** Whatever the search, a listing has at most one line per tree entry, and
      every line is the name of a template file of the tree. */
  lemma ListingBounded(tree: seq<string>, searchPattern: Option<string>, isRegex: bool, regex: RegexEngine)
    ensures var r := AvailableTemplates(tree, searchPattern, isRegex, regex);
            r.Ok? ==>
              && |r.value| <= |tree|
              && forall i :: 0 <= i < |r.value| ==>
                   exists path :: path in tree && IsTemplateFile(path) && r.value[i] == Body(path)
  {
    var r := AvailableTemplates(tree, searchPattern, isRegex, regex);
    if r.Ok? {
      if IsNullOrWhiteSpace(searchPattern) {
        ListsContents(tree, r.value, _ => true, Body);
      } else if isRegex {
        ListsContents(tree, r.value, regex(searchPattern.value).value, Body);
      } else {
        var m := Wildcard.Parse(searchPattern.value).value;
        ListsContents(tree, r.value, path => Wildcard.Keeps(m, path), Body);
      }
    }
  }

  /** A blank search (null, empty or white space) lists every template,
      whatever the other arguments. */
  lemma BlankSearchListsAll(tree: seq<string>, searchPattern: Option<string>, isRegex: bool, regex: RegexEngine)
    requires IsNullOrWhiteSpace(searchPattern)
    ensures var r := AvailableTemplates(tree, searchPattern, isRegex, regex);
            && r.Ok?
            && forall path :: path in tree && IsTemplateFile(path) ==> Body(path) in r.value
  {
    ListsContents(tree, TemplateNames(tree), _ => true, Body);
  }
}

=== FILE: gitignore_command.dfy ===
/** `GitIgnoreCommand.OnExecuteAsync`, the current command: check the output
    location, resolve the template against the listing, download it into the
    cache (falling back to a cached copy on some failures), and copy or append
    it to the output `.gitignore`. The listing tree, the download outcome and
    the file system are inputs; the cache directory is a parameter. */
module GitIgnoreCommand {
  import opened Wrappers
  import opened Text
  import opened Seqs
  import opened GitFile
  import opened GitHubApi
  import opened FileSystem
  import opened Transport
  import opened CacheStore

  const DefaultTemplate := "VisualStudio.gitignore"

  /** The command line: output directory (already resolved to a full path),
      `--force`, `--template` (`None` when not given), `--append`, `--version`. */
  datatype Options = Options(output: string, force: bool, template: Option<string>, append: bool, version: bool)

  function OutputFile(opts: Options): FilePath {
    FilePath(opts.output, Extension)
  }

  /** The template name the user asked for, with ".gitignore" removed
      (everywhere) when it ends with it. */
  function Requested(template: string): string {
    if EndsWith(template, Extension) then RemoveAll(template, Extension) else template
  }

  /** A blank template selects the default; otherwise the first listed name
      equal to the requested one ignoring case is chosen, with ".gitignore"
      appended; `None` when no name matches. */
  function ResolveTemplate(template: Option<string>, tree: seq<string>): (r: Option<string>)
    ensures IsNullOrWhiteSpace(template) ==> r == Some(DefaultTemplate)
    ensures !IsNullOrWhiteSpace(template) ==>
              var names, wanted := TemplateNames(tree), Requested(template.value);
              && (r.None? <==> forall i :: 0 <= i < |names| ==> !EqualsIgnoreCase(names[i], wanted))
              && (r.Some? ==> exists i :: && 0 <= i < |names|
                                          && EqualsIgnoreCase(names[i], wanted)
                                          && r.value == names[i] + Extension
                                          && forall j :: 0 <= j < i ==> !EqualsIgnoreCase(names[j], wanted))
  {
    if IsNullOrWhiteSpace(template) then Some(DefaultTemplate)
    else
      var names, wanted := TemplateNames(tree), Requested(template.value);
      match FirstIndexWhere(names, n => EqualsIgnoreCase(n, wanted))
      case None => None
      case Some(i) => Some(names[i] + Extension)
  }

  /** The file that is downloaded is a template file, and its name is the one
      chosen: the default's name is "VisualStudio", and any other is a listed
      name equal to the request ignoring case (given dot-free listed names,
      so that appending ".gitignore" can be undone). */
  lemma ResolvedTemplateListedAgain(template: Option<string>, tree: seq<string>)
    requires ResolveTemplate(template, tree).Some?
    requires forall k :: 0 <= k < |TemplateNames(tree)| ==> '.' !in TemplateNames(tree)[k]
    ensures IsTemplateFile(ResolveTemplate(template, tree).value)
    ensures IsNullOrWhiteSpace(template) ==> Body(ResolveTemplate(template, tree).value) == "VisualStudio"
    ensures !IsNullOrWhiteSpace(template) ==>
              var name := Body(ResolveTemplate(template, tree).value);
              name in TemplateNames(tree) && EqualsIgnoreCase(name, Requested(template.value))
  {
    if IsNullOrWhiteSpace(template) {
      assert DefaultTemplate == "VisualStudio" + Extension;
      BodyOfTemplateName("VisualStudio");
    } else {
      var names, wanted := TemplateNames(tree), Requested(template.value);
      var i :| && 0 <= i < |names|
               && EqualsIgnoreCase(names[i], wanted)
               && ResolveTemplate(template, tree).value == names[i] + Extension;
      assert '.' !in names[i];
      BodyOfTemplateName(names[i]);
    }
  }

  /** The file system once the output and cache directories exist. */
  function Prepared(opts: Options, cacheDir: string, fs: Fs): Fs {
    fs.(dirs := fs.dirs + {opts.output, cacheDir})
  }

  /** The run reaches the download: no version request, the output directory
      exists or may be created, no `.gitignore` is in the way, and the
      template resolves. */
  predicate Downloads(opts: Options, tree: seq<string>, fs: Fs) {
    && !opts.version
    && (opts.output in fs.dirs || opts.force)
    && !(OutputFile(opts) in fs.files && !opts.force && !opts.append)
    && ResolveTemplate(opts.template, tree).Some?
  }

  function Run(opts: Options, cacheDir: string, tree: seq<string>, download: Download, fs: Fs): (r: Exit)
    ensures r.code == 0 || r.code == 1
    ensures r.fs.locked == fs.locked
    ensures r.fs.dirs <= fs.dirs + {opts.output, cacheDir}
    ensures forall q :: q != OutputFile(opts) && q.dir != cacheDir ==> Get(r.fs, q) == Get(fs, q)
  {
    if opts.version then Exit(0, ShowedVersion, fs)
    else if opts.output !in fs.dirs && !opts.force then Exit(1, MissingOutputDirectory, fs)
    else
      var fs1 := if opts.output in fs.dirs then fs else CreateDirectory(fs, opts.output);
      if OutputFile(opts) in fs1.files && !opts.force && !opts.append then Exit(1, OutputExists, fs1)
      else
        var fs2 := CreateDirectory(fs1, cacheDir);
        assert fs2 == Prepared(opts, cacheDir, fs);
        match ResolveTemplate(opts.template, tree)
        case None => Exit(1, TemplateNotFound, fs2)
        case Some(template) => Fetch(opts, cacheDir, template, download, fs2)
  }

  /** The download and what follows it, for a resolved template. A download
      into a locked temporary file throws `IOException`; the second download
      that handler makes then fetches the same lines. The fallback is the one
      the command writes (`FallbackAsWritten`). */
  function Fetch(opts: Options, cacheDir: string, template: string, download: Download, fs: Fs): (r: Exit)
    ensures r.code == 0 || r.code == 1
    ensures SameExcept(fs, r.fs, {OutputFile(opts), FilePath(cacheDir, template), TempFile(cacheDir, template), FilePath(cacheDir, Extension)})
    ensures !download.Fetched? && !download.IOFailure? ==> SameExcept(fs, r.fs, {OutputFile(opts)})
    ensures download.IOFailure? ==> r.code == 1 && SameExcept(fs, r.fs, {FilePath(cacheDir, Extension)})
    ensures download.Fetched? && TempFile(cacheDir, template) in fs.locked ==>
              r.code == 1 && SameExcept(fs, r.fs, {FilePath(cacheDir, Extension)})
    ensures r.code == 0 ==>
              || (download.Fetched? && TempFile(cacheDir, template) !in fs.locked)
              || ((download.WebFailure? || download.FlurlIncomplete? || download.HttpRequestFailure?)
                  && FilePath(cacheDir, template) in fs.files)
  {
    var cache := FilePath(cacheDir, template);
    var temp := TempFile(cacheDir, template);
    match download
    case Fetched(lines) =>
      if temp in fs.locked then FallbackAsWritten(cacheDir, Some(lines), fs)
      else Install(opts, cache, Promote(Write(fs, temp, lines), cache, temp))
    case WebFailure => if cache in fs.files then Install(opts, cache, fs) else Exit(1, Offline, fs)
    case HttpRequestFailure => Install(opts, cache, fs)
    case IOFailure(retry) => FallbackAsWritten(cacheDir, retry, fs)
    case FlurlIncomplete => if cache in fs.files then Install(opts, cache, fs) else Exit(1, Offline, fs)
    case FlurlCompleted(status) =>
      Exit(1, if StatusCode(status) == NotFound then TemplateNotFound else DownloadFailed, fs)
    case OtherFailure => Exit(1, DownloadFailed, fs)
  }

  /** The fallback after an `IOException` while caching, as the command
      writes it: download once more, into `.gitignore` in the cache
      directory, and exit with code 1 either way. The output is not touched. */
  function FallbackAsWritten(cacheDir: string, retry: Option<seq<string>>, fs: Fs): (r: Exit)
    ensures r.code == 1
    ensures SameExcept(fs, r.fs, {FilePath(cacheDir, Extension)})
    ensures r.reason == CacheUnwritable <==> retry.Some? && cacheDir in fs.dirs && FilePath(cacheDir, Extension) !in fs.locked
    ensures r.reason == CacheUnwritable ==> Get(r.fs, FilePath(cacheDir, Extension)) == retry
    ensures r.reason != CacheUnwritable ==> r == Exit(1, CannotWrite, fs)
  {
    var target := FilePath(cacheDir, Extension);
    match retry
    case Some(lines) =>
      if cacheDir in fs.dirs && target !in fs.locked then Exit(1, CacheUnwritable, Write(fs, target, lines))
      else Exit(1, CannotWrite, fs)
    case None => Exit(1, CannotWrite, fs)
  }

  /** The corrected fallback: the second download goes straight to the output
      `.gitignore`, as the handler's own comment describes, and the exit code
      stays 1. */
  function Fallback(opts: Options, retry: Option<seq<string>>, fs: Fs): (r: Exit)
    ensures r.code == 1
    ensures SameExcept(fs, r.fs, {OutputFile(opts)})
    ensures r.reason == CacheUnwritable <==> retry.Some? && opts.output in fs.dirs && OutputFile(opts) !in fs.locked
    ensures r.reason == CacheUnwritable ==> Get(r.fs, OutputFile(opts)) == retry
    ensures r.reason != CacheUnwritable ==> r == Exit(1, CannotWrite, fs)
  {
    match retry
    case Some(lines) =>
      if opts.output in fs.dirs && OutputFile(opts) !in fs.locked then Exit(1, CacheUnwritable, Write(fs, OutputFile(opts), lines))
      else Exit(1, CannotWrite, fs)
    case None => Exit(1, CannotWrite, fs)
  }

  /** A second download that succeeds reports success of the fallback, yet as
      written the output `.gitignore` stays as it was (absent, say), while the
      corrected fallback leaves the downloaded lines in it. */
  lemma FallbackMissesOutput(opts: Options, cacheDir: string, lines: seq<string>, fs: Fs)
    requires cacheDir != opts.output
    requires cacheDir in fs.dirs && opts.output in fs.dirs
    requires FilePath(cacheDir, Extension) !in fs.locked && OutputFile(opts) !in fs.locked
    ensures var written := FallbackAsWritten(cacheDir, Some(lines), fs);
            && written.reason == CacheUnwritable
            && Get(written.fs, OutputFile(opts)) == Get(fs, OutputFile(opts))
            && Get(written.fs, FilePath(cacheDir, Extension)) == Some(lines)
    ensures var fixed := Fallback(opts, Some(lines), fs);
            && fixed.reason == CacheUnwritable
            && Get(fixed.fs, OutputFile(opts)) == Some(lines)
            && Get(fixed.fs, FilePath(cacheDir, Extension)) == Get(fs, FilePath(cacheDir, Extension))
  {
  }

  /** Append the cache file's lines to the output, or copy the cache file
      over it (replacing an existing one only with `--force`). */
  function Install(opts: Options, cache: FilePath, fs: Fs): (r: Exit)
    ensures r.code == 0 <==>
              if opts.append then cache in fs.files && opts.output in fs.dirs && OutputFile(opts) !in fs.locked
              else Copy(fs, cache, OutputFile(opts), opts.force).Some?
    ensures r.code == 0 ==> r.reason == Installed && cache in fs.files
    ensures r.code == 0 ==>
              Get(r.fs, OutputFile(opts)) ==
                Some(if opts.append then Get(fs, OutputFile(opts)).GetOr([]) + fs.files[cache] else fs.files[cache])
    ensures r.code != 0 ==> r == Exit(1, CannotWrite, fs)
    ensures SameExcept(fs, r.fs, {OutputFile(opts)})
  {
    var written :=
      if opts.append then
        match ReadAllLines(fs, cache)
        case None => None
        case Some(lines) => AppendAllLines(fs, OutputFile(opts), lines)
      else Copy(fs, cache, OutputFile(opts), opts.force);
    match written
    case None => Exit(1, CannotWrite, fs)
    case Some(fs') => Exit(0, Installed, fs')
  }

  /** `--version` prints the version and does nothing else. */
  lemma VersionOnly(opts: Options, cacheDir: string, tree: seq<string>, download: Download, fs: Fs)
    requires opts.version
    ensures Run(opts, cacheDir, tree, download, fs) == Exit(0, ShowedVersion, fs)
  {
  }

  /** A missing output directory is created with `--force` and is an error
      without it. */
  lemma OutputDirectoryCheck(opts: Options, cacheDir: string, tree: seq<string>, download: Download, fs: Fs)
    requires !opts.version && opts.output !in fs.dirs
    ensures var r := Run(opts, cacheDir, tree, download, fs);
            && (!opts.force ==> r == Exit(1, MissingOutputDirectory, fs))
            && (opts.force ==> opts.output in r.fs.dirs)
  {
  }

  /** An existing `.gitignore` without `--force` or `--append` ends the run
      before the cache directory, the listing or the download are touched. */
  lemma ExistingOutputRefused(opts: Options, cacheDir: string, tree: seq<string>, download: Download, fs: Fs)
    requires !opts.version && opts.output in fs.dirs
    requires OutputFile(opts) in fs.files && !opts.force && !opts.append
    ensures Run(opts, cacheDir, tree, download, fs) == Exit(1, OutputExists, fs)
  {
  }

  /** A template missing from the listing ends the run with no download: the
      result does not depend on the download outcome. */
  lemma UnknownTemplateNotDownloaded(opts: Options, cacheDir: string, tree: seq<string>, download: Download, fs: Fs)
    requires !opts.version && (opts.output in fs.dirs || opts.force)
    requires !(OutputFile(opts) in fs.files && !opts.force && !opts.append)
    requires ResolveTemplate(opts.template, tree).None?
    ensures Run(opts, cacheDir, tree, download, fs) == Exit(1, TemplateNotFound, Prepared(opts, cacheDir, fs))
  {
  }

  lemma ReachesFetch(opts: Options, cacheDir: string, tree: seq<string>, download: Download, fs: Fs)
    requires Downloads(opts, tree, fs)
    ensures Run(opts, cacheDir, tree, download, fs)
            == Fetch(opts, cacheDir, ResolveTemplate(opts.template, tree).value, download, Prepared(opts, cacheDir, fs))
  {
    var fs1 := if opts.output in fs.dirs then fs else CreateDirectory(fs, opts.output);
    assert OutputFile(opts) in fs1.files <==> OutputFile(opts) in fs.files;
    assert CreateDirectory(fs1, cacheDir) == Prepared(opts, cacheDir, fs);
  }

  /** Without a successful download no file in the cache directory changes,
      except that after an `IOException` the second download may leave its
      lines in `.gitignore` there. */
  lemma CacheChangesOnlyAfterDownload(opts: Options, cacheDir: string, tree: seq<string>, download: Download, fs: Fs)
    requires cacheDir != opts.output
    requires !download.Fetched?
    ensures var r := Run(opts, cacheDir, tree, download, fs);
            && (forall q: FilePath :: q.dir == cacheDir && q != FilePath(cacheDir, Extension) ==> Get(r.fs, q) == Get(fs, q))
            && (!download.IOFailure? ==> Get(r.fs, FilePath(cacheDir, Extension)) == Get(fs, FilePath(cacheDir, Extension)))
            && (download.IOFailure? ==>
                  Get(r.fs, FilePath(cacheDir, Extension)) == Get(fs, FilePath(cacheDir, Extension))
                  || Get(r.fs, FilePath(cacheDir, Extension)) == download.retry)
  {
    if Downloads(opts, tree, fs) {
      ReachesFetch(opts, cacheDir, tree, download, fs);
    }
  }

  /** An `IOException` while caching always ends the run with code 1 and
      leaves the output as it was; when the second download succeeds and
      `.gitignore` in the cache directory is writable, its lines land there. */
  lemma CacheFailureLeavesOutput(opts: Options, cacheDir: string, tree: seq<string>, retry: Option<seq<string>>, fs: Fs)
    requires cacheDir != opts.output
    requires Downloads(opts, tree, fs)
    ensures var r := Run(opts, cacheDir, tree, IOFailure(retry), fs);
            && r.code == 1
            && Get(r.fs, OutputFile(opts)) == Get(fs, OutputFile(opts))
            && (retry.Some? && FilePath(cacheDir, Extension) !in fs.locked ==>
                  r.reason == CacheUnwritable && Get(r.fs, FilePath(cacheDir, Extension)) == retry)
            && (retry.None? ==> r == Exit(1, CannotWrite, Prepared(opts, cacheDir, fs)))
  {
    ReachesFetch(opts, cacheDir, tree, IOFailure(retry), fs);
    var prepared := Prepared(opts, cacheDir, fs);
    assert Run(opts, cacheDir, tree, IOFailure(retry), fs) == FallbackAsWritten(cacheDir, retry, prepared);
    assert cacheDir in prepared.dirs && prepared.locked == fs.locked;
    assert OutputFile(opts) != FilePath(cacheDir, Extension);
  }

  /** A successful download replaces the stable cache file by way of the
      temporary one (when neither is locked), and a successful install then
      writes exactly the downloaded lines. */
  lemma FreshDownloadPromoted(opts: Options, cacheDir: string, tree: seq<string>, download: Download, fs: Fs)
    requires cacheDir != opts.output
    requires Downloads(opts, tree, fs) && download.Fetched?
    requires var t := ResolveTemplate(opts.template, tree).value;
             FilePath(cacheDir, t) !in fs.locked && TempFile(cacheDir, t) !in fs.locked
    ensures var t := ResolveTemplate(opts.template, tree).value;
            var r := Run(opts, cacheDir, tree, download, fs);
            && Get(r.fs, FilePath(cacheDir, t)) == Some(download.lines)
            && Get(r.fs, TempFile(cacheDir, t)) == None
            && (r.code == 0 <==> OutputFile(opts) !in fs.locked)
            && (r.code == 0 ==>
                  Get(r.fs, OutputFile(opts)) ==
                    Some(if opts.append then Get(fs, OutputFile(opts)).GetOr([]) + download.lines else download.lines))
  {
    ReachesFetch(opts, cacheDir, tree, download, fs);
  }

  /** When the server cannot be reached (a `WebException` or a Flurl call
      that never completed) the existing cache file is installed unchanged;
      with no cache file the run fails and writes nothing. */
  lemma UnreachableServerUsesCache(opts: Options, cacheDir: string, tree: seq<string>, download: Download, fs: Fs)
    requires cacheDir != opts.output
    requires Downloads(opts, tree, fs) && (download.WebFailure? || download.FlurlIncomplete?)
    ensures var cache := FilePath(cacheDir, ResolveTemplate(opts.template, tree).value);
            var r := Run(opts, cacheDir, tree, download, fs);
            && (cache !in fs.files ==> r == Exit(1, Offline, Prepared(opts, cacheDir, fs)))
            && (cache in fs.files ==>
                  && (r.code == 0 <==> OutputFile(opts) !in fs.locked)
                  && (r.code == 0 ==>
                        Get(r.fs, OutputFile(opts)) ==
                          Some(if opts.append then Get(fs, OutputFile(opts)).GetOr([]) + fs.files[cache] else fs.files[cache])))
  {
    ReachesFetch(opts, cacheDir, tree, download, fs);
  }

  /** The empty `HttpRequestException` handler: with a cache file the run
      continues exactly as after a `WebException`; without one, installing
      from the missing cache file fails as a write error. */
  lemma HttpRequestFailureFallsThrough(opts: Options, cacheDir: string, tree: seq<string>, fs: Fs)
    requires Downloads(opts, tree, fs)
    ensures var cache := FilePath(cacheDir, ResolveTemplate(opts.template, tree).value);
            var r := Run(opts, cacheDir, tree, HttpRequestFailure, fs);
            && (cache in fs.files ==> r == Run(opts, cacheDir, tree, WebFailure, fs))
            && (cache !in fs.files ==> r == Exit(1, CannotWrite, Prepared(opts, cacheDir, fs)))
  {
    ReachesFetch(opts, cacheDir, tree, HttpRequestFailure, fs);
    ReachesFetch(opts, cacheDir, tree, WebFailure, fs);
  }

  /** A completed call with an error status fails without touching the
      cache; status 404 reports the template as not found. */
  lemma CompletedCallFails(opts: Options, cacheDir: string, tree: seq<string>, download: Download, fs: Fs)
    requires Downloads(opts, tree, fs) && download.FlurlCompleted?
    ensures var r := Run(opts, cacheDir, tree, download, fs);
            && r.code == 1
            && r.fs == Prepared(opts, cacheDir, fs)
            && (r.reason == TemplateNotFound <==> StatusCode(download.status) == NotFound)
  {
    ReachesFetch(opts, cacheDir, tree, download, fs);
  }

  /** A run that succeeds (other than `--version`) got to the download, used
      either a fresh download or a cache file that survived a connection
      failure, and left the output holding the final cache file's lines,
      after the old lines with `--append`. */
  lemma SuccessfulRunInstalls(opts: Options, cacheDir: string, tree: seq<string>, download: Download, fs: Fs)
    requires cacheDir != opts.output
    requires !opts.version && Run(opts, cacheDir, tree, download, fs).code == 0
    ensures Downloads(opts, tree, fs)
    ensures var t := ResolveTemplate(opts.template, tree).value;
            var cache := FilePath(cacheDir, t);
            var r := Run(opts, cacheDir, tree, download, fs);
            && r.reason == Installed
            && (|| (download.Fetched? && TempFile(cacheDir, t) !in fs.locked)
                || ((download.WebFailure? || download.FlurlIncomplete? || download.HttpRequestFailure?) && cache in fs.files))
            && Get(r.fs, cache).Some?
            && Get(r.fs, OutputFile(opts)) ==
                 Some(if opts.append then Get(fs, OutputFile(opts)).GetOr([]) + Get(r.fs, cache).value
                      else Get(r.fs, cache).value)
  {
    ReachesFetch(opts, cacheDir, tree, download, fs);
    var t := ResolveTemplate(opts.template, tree).value;
    var prepared := Prepared(opts, cacheDir, fs);
    assert download.Fetched? ==> TempFile(cacheDir, t) !in prepared.locked;
    var before := match download
                  case Fetched(lines) => Promote(Write(prepared, TempFile(cacheDir, t), lines), FilePath(cacheDir, t), TempFile(cacheDir, t))
                  case _ => prepared;
    assert Run(opts, cacheDir, tree, download, fs) == Install(opts, FilePath(cacheDir, t), before);
  }
}

=== FILE: legacy_github_api.dfy ===
/** The older `GitHubApiService.GetAvailableTemplates`: no blank-pattern
    guard, and each name is returned indented by four spaces. */
module LegacyGitHubApi {
  import opened Wrappers
  import opened Text
  import opened Seqs
  import opened GitFile
  import opened Patterns
  import LegacyWildcard
  import GitHubApi

  const Indent := "    "

  /** `"    " + f.Path.Replace(".gitignore", string.Empty)`. */
  function Indented(path: string): string {
    Indent + Body(path)
  }

  /** Keep the ".gitignore" entries, filter them by regex or by wildcard
      (always: the pattern is never checked for blankness), and return the
      indented names. */
  function AvailableTemplates(tree: seq<string>, searchPattern: string, isRegex: bool, regex: GitHubApi.RegexEngine)
    : (r: Result<seq<string>, PatternError>)
    ensures isRegex ==>
              match regex(searchPattern)
              case None => r == Err(InvalidRegex)
              case Some(isMatch) => r.Ok? && Lists(tree, r.value, isMatch, Indented)
    ensures !isRegex ==>
              match LegacyWildcard.Parse(searchPattern)
              case Err(e) => r == Err(e)
              case Ok(m) => r.Ok? && Lists(tree, r.value, path => LegacyWildcard.Keeps(m, path), Indented)
  {
    var files := Filter(tree, IsTemplateFile);
    if isRegex then
      match regex(searchPattern)
      case None => Err(InvalidRegex)
      case Some(isMatch) =>
        var kept := Filter(files, isMatch);
        FilterTemplateFiles(tree, isMatch, kept);
        Ok(Map(kept, Indented))
    else
      match LegacyWildcard.WhereGitFileMatches(files, searchPattern)
      case Err(e) => Err(e)
      case Ok(kept) =>
        FilterTemplateFiles(tree, path => LegacyWildcard.Keeps(LegacyWildcard.Parse(searchPattern).value, path), kept);
        Ok(Map(kept, Indented))
  }

  /** The default search (empty pattern, no regex) indexes the empty pattern
      and fails for every tree: `templates list` without an argument cannot
      list anything. */
  lemma DefaultListingFails(tree: seq<string>, regex: GitHubApi.RegexEngine)
    ensures AvailableTemplates(tree, "", false, regex) == Err(IndexOutOfRange)
  {
  }

  /** For every pattern that is not blank, the older listing is the current
      listing with each name indented. */
  lemma AgreesWithCurrent(tree: seq<string>, searchPattern: string, isRegex: bool, regex: GitHubApi.RegexEngine)
    requires !IsNullOrWhiteSpace(Some(searchPattern))
    ensures match GitHubApi.AvailableTemplates(tree, Some(searchPattern), isRegex, regex)
            case Ok(names) => AvailableTemplates(tree, searchPattern, isRegex, regex) == Ok(Map(names, n => Indent + n))
            case Err(e) => AvailableTemplates(tree, searchPattern, isRegex, regex) == Err(e)
  {
    var files := Filter(tree, IsTemplateFile);
    if isRegex {
      match regex(searchPattern)
      case None =>
      case Some(isMatch) =>
        var kept := Filter(files, isMatch);
        assert GitHubApi.AvailableTemplates(tree, Some(searchPattern), isRegex, regex) == Ok(Map(kept, Body));
        IndentNames(kept);
    } else {
      LegacyWildcard.AgreesWithCurrent(files, searchPattern);
      match LegacyWildcard.WhereGitFileMatches(files, searchPattern)
      case Err(_) =>
      case Ok(kept) =>
        assert GitHubApi.AvailableTemplates(tree, Some(searchPattern), isRegex, regex) == Ok(Map(kept, Body));
        IndentNames(kept);
    }
  }

  lemma IndentNames(files: seq<string>)
    ensures Map(Map(files, Body), n => Indent + n) == Map(files, Indented)
  {
  }
}

=== FILE: legacy_program.dfy ===
/** `Program.OnExecuteAsync`, the older command: always the default
    template, a fixed cache file name, and the output check only after the
    download. `Environment.Exit(1)` is an exit with code 1; returning from
    the method is an exit with code 0. */
module LegacyProgram {
  import opened Wrappers
  import opened GitFile
  import opened FileSystem
  import opened Transport
  import opened CacheStore

  /** The output directory (already resolved) and `--force`. */
  datatype Options = Options(output: string, force: bool)

  function OutputFile(opts: Options): FilePath {
    FilePath(opts.output, Extension)
  }

  /** The stable cache file `.gitignore` in the cache directory. */
  function CacheFile(cacheDir: string): FilePath {
    FilePath(cacheDir, Extension)
  }

  /** The file system once the output and cache directories exist. */
  function Prepared(opts: Options, cacheDir: string, fs: Fs): Fs {
    fs.(dirs := fs.dirs + {opts.output, cacheDir})
  }

  /** The download uses `WebClient`; outcomes other than the first four
      reach the generic handler. After an `IOException` the second download
      targets the output directory's own path, which is a directory and
      cannot be written as a file, so that branch always fails. A download
      into a locked temporary file is such an `IOException`. */
  function Run(opts: Options, cacheDir: string, download: Download, fs: Fs): (r: Exit)
    ensures r.code == 0 || r.code == 1
    ensures r.fs.locked == fs.locked
    ensures r.fs.dirs <= fs.dirs + {opts.output, cacheDir}
    ensures forall q: FilePath :: q != OutputFile(opts) && q.dir != cacheDir ==> Get(r.fs, q) == Get(fs, q)
  {
    if opts.output !in fs.dirs && !opts.force then Exit(1, MissingOutputDirectory, fs)
    else
      var fs1 := if opts.output in fs.dirs then fs else CreateDirectory(fs, opts.output);
      var fs2 := CreateDirectory(fs1, cacheDir);
      assert fs2 == Prepared(opts, cacheDir, fs);
      var cache := CacheFile(cacheDir);
      var temp := TempFile(cacheDir, Extension);
      match download
      case Fetched(lines) =>
        if temp in fs2.locked then Exit(1, CannotWrite, fs2)
        else Finish(opts, cache, Promote(Write(fs2, temp, lines), cache, temp))
      case WebFailure => if cache in fs2.files then Finish(opts, cache, fs2) else Exit(1, Offline, fs2)
      case HttpRequestFailure => if cache in fs2.files then Finish(opts, cache, fs2) else Exit(1, Offline, fs2)
      case IOFailure(_) => Exit(1, CannotWrite, fs2)
      case _ => Exit(1, DownloadFailed, fs2)
  }

  /** After the cache step: refuse an existing output without `--force`,
      otherwise copy the cache file over it. */
  function Finish(opts: Options, cache: FilePath, fs: Fs): (r: Exit)
    ensures r.code == 0 <==> !(OutputFile(opts) in fs.files && !opts.force) && Copy(fs, cache, OutputFile(opts), opts.force).Some?
    ensures r.code == 0 ==> r.reason == Installed && Get(r.fs, OutputFile(opts)) == Get(fs, cache) && cache in fs.files
    ensures r.code != 0 ==> r.fs == fs
    ensures OutputFile(opts) in fs.files && !opts.force ==> r.reason == OutputExists
    ensures SameExcept(fs, r.fs, {OutputFile(opts)})
  {
    if OutputFile(opts) in fs.files && !opts.force then Exit(1, OutputExists, fs)
    else
      match Copy(fs, cache, OutputFile(opts), opts.force)
      case None => Exit(1, CannotWrite, fs)
      case Some(fs') => Exit(0, Installed, fs')
  }

  /** A missing output directory without `--force` ends the run before any
      download: the result does not depend on the download outcome. */
  lemma MissingDirectoryStopsEarly(opts: Options, cacheDir: string, download: Download, fs: Fs)
    requires opts.output !in fs.dirs && !opts.force
    ensures Run(opts, cacheDir, download, fs) == Exit(1, MissingOutputDirectory, fs)
  {
  }

  /** Nothing in the cache directory changes unless the download
      succeeded: the download writes only `_.gitignore`, and `.gitignore` is
      replaced only by promoting it. */
  lemma CacheChangesOnlyAfterDownload(opts: Options, cacheDir: string, download: Download, fs: Fs)
    requires cacheDir != opts.output
    requires !download.Fetched?
    ensures forall q: FilePath :: q.dir == cacheDir ==> Get(Run(opts, cacheDir, download, fs).fs, q) == Get(fs, q)
  {
  }

  /** `WebException` and `HttpRequestException` are handled alike. */
  lemma ConnectionFailuresAgree(opts: Options, cacheDir: string, fs: Fs)
    ensures Run(opts, cacheDir, WebFailure, fs) == Run(opts, cacheDir, HttpRequestFailure, fs)
  {
  }

  /** After a connection failure the existing cache file is installed; with
      no cache file the run fails and writes nothing. */
  lemma ConnectionFailureUsesCache(opts: Options, cacheDir: string, fs: Fs)
    requires cacheDir != opts.output
    requires opts.output in fs.dirs || opts.force
    ensures var r := Run(opts, cacheDir, WebFailure, fs);
            && (CacheFile(cacheDir) !in fs.files ==> r == Exit(1, Offline, Prepared(opts, cacheDir, fs)))
            && (CacheFile(cacheDir) in fs.files ==>
                  && r == Finish(opts, CacheFile(cacheDir), Prepared(opts, cacheDir, fs))
                  && (r.code == 0 <==> (OutputFile(opts) !in fs.files || opts.force) && OutputFile(opts) !in fs.locked)
                  && (r.code == 0 ==> Get(r.fs, OutputFile(opts)) == Get(fs, CacheFile(cacheDir))))
  {
  }

  /** Because the output check comes after the download, a run refused for
      an existing `.gitignore` has still refreshed the cache. */
  lemma ExistingOutputAfterRefresh(opts: Options, cacheDir: string, lines: seq<string>, fs: Fs)
    requires cacheDir != opts.output
    requires opts.output in fs.dirs && OutputFile(opts) in fs.files && !opts.force
    requires CacheFile(cacheDir) !in fs.locked && TempFile(cacheDir, Extension) !in fs.locked
    ensures var r := Run(opts, cacheDir, Fetched(lines), fs);
            && r.code == 1 && r.reason == OutputExists
            && Get(r.fs, CacheFile(cacheDir)) == Some(lines)
            && Get(r.fs, OutputFile(opts)) == Get(fs, OutputFile(opts))
  {
  }

  /** A successful run copied the final cache file to the output, which was
      absent or `--force` was given. */
  lemma SuccessfulRunCopies(opts: Options, cacheDir: string, download: Download, fs: Fs)
    requires cacheDir != opts.output
    requires Run(opts, cacheDir, download, fs).code == 0
    ensures var r := Run(opts, cacheDir, download, fs);
            && (OutputFile(opts) !in fs.files || opts.force)
            && ((download.Fetched? && TempFile(cacheDir, Extension) !in fs.locked) || ((download.WebFailure? || download.HttpRequestFailure?) && CacheFile(cacheDir) in fs.files))
            && Get(r.fs, CacheFile(cacheDir)).Some?
            && Get(r.fs, OutputFile(opts)) == Get(r.fs, CacheFile(cacheDir))
  {
  }
}

=== FILE: legacy_wildcard.dfy ===
/** `ListFilterer.WhereGitFileMatches`: the older wildcard list filter, which
    lowercases the pattern and the paths instead of comparing ignoring case. */
module LegacyWildcard {
  import opened Wrappers
  import opened Text
  import opened Seqs
  import opened GitFile
  import opened Patterns
  import Wildcard

  /** Whether a listing path survives; the halves of an `Affix` matcher are
      already lowercase. */
  predicate Keeps(m: Matcher, path: string) {
    match m
    case Substring(text) => Contains(Body(path), text)
    case Affix(starts, ends) => StartsWith(Lower(path), starts) && EndsWith(Lower(Body(path)), ends)
  }

  /** The pattern analysis: the `*text*` branch is unchanged from the current
      version; the other branch locates the star in the pattern as given and
      then splits the lowercased pattern. */
  function Parse(p: string): (r: Result<Matcher, PatternError>)
    ensures |p| == 0 <==> r == Err(IndexOutOfRange)
    ensures r.Err? && r.error.FormatError? <==>
              |p| > 0 && if EdgeStars(p) then HasInnerStar(p) else StarCount(p) >= 2
    ensures r.Err? ==> r.error == IndexOutOfRange || r.error == FormatError(SimplePatternsMessage)
    ensures r.Ok? && r.value.Substring? <==> EdgeStars(p) && !HasInnerStar(p)
    ensures r.Ok? && r.value.Substring? ==> Surrounds(p, r.value.text)
    ensures r.Ok? && r.value.Affix? ==> Lower(r.value.starts) == r.value.starts && Lower(r.value.ends) == r.value.ends
    ensures r.Ok? && r.value.Affix? && StarCount(p) == 0 ==> r.value.starts == Lower(p) && r.value.ends == Lower(p)
    ensures r.Ok? && r.value.Affix? && StarCount(p) > 0 ==> Lower(p) == r.value.starts + [Star] + r.value.ends
  {
    if |p| == 0 then Err(IndexOutOfRange)
    else if p[0] == Star && p[|p| - 1] == Star then Wildcard.ParseStarred(p)
    else ParseSplit(p)
  }

  /** The branch without edge stars: find the star in the pattern as given,
      then take the halves from the lowercased pattern. */
  function ParseSplit(p: string): (r: Result<Matcher, PatternError>)
    ensures r.Err? <==> StarCount(p) >= 2
    ensures r.Err? ==> r.error == FormatError(SimplePatternsMessage)
    ensures r.Ok? ==> r.value.Affix? && Lower(r.value.starts) == r.value.starts && Lower(r.value.ends) == r.value.ends
    ensures r.Ok? && StarCount(p) == 0 ==> r.value.starts == Lower(p) && r.value.ends == Lower(p)
    ensures r.Ok? && StarCount(p) > 0 ==> Lower(p) == r.value.starts + [Star] + r.value.ends
  {
    var wildCardIndex := IndexOf(p, Star);
    FirstIsLastIffAtMostOnce(p, Star);
    if wildCardIndex != LastIndexOf(p, Star) then Err(FormatError(SimplePatternsMessage))
    else
      var lowered := Lower(p);
      var cut := if wildCardIndex < 0 then |lowered| else wildCardIndex;
      var endStart := if wildCardIndex < 0 then 0 else wildCardIndex + 1;
      LoweredHalves(p, wildCardIndex);
      LowerIdempotent(p);
      Ok(Affix(lowered[..Max(0, cut)], lowered[Min(endStart, |lowered|)..]))
  }

  lemma LoweredHalves(p: string, w: int)
    requires w < 0 ==> Star !in p
    requires w >= 0 ==> w < |p| && p[w] == Star && Star !in p[..w] && Star !in p[w + 1..]
    ensures w < 0 ==> StarCount(p) == 0 && Lower(p)[..|p|] == Lower(p) && Lower(p)[0..] == Lower(p)
    ensures w >= 0 ==> StarCount(p) > 0 && Lower(p) == Lower(p)[..w] + [Star] + Lower(p)[w + 1..]
    ensures w >= 0 ==> Lower(p)[..w] == Lower(p[..w]) && Lower(p)[w + 1..] == Lower(p[w + 1..])
  {
    Wildcard.SplitHalves(p, w);
    if w >= 0 {
      LowerAroundStar(p[..w], p[w + 1..]);
    }
  }

  lemma LowerAroundStar(a: string, b: string)
    ensures var l := Lower(a + [Star] + b);
            && l == l[..|a|] + [Star] + l[|a| + 1..]
            && l[..|a|] == Lower(a) && l[|a| + 1..] == Lower(b)
  {
    LowerConcat(a + [Star], b);
    LowerConcat(a, [Star]);
    assert Lower([Star]) == [Star];
    var l := Lower(a + [Star] + b);
    assert l == Lower(a) + [Star] + Lower(b);
  }

  /** The filter: the paths the pattern keeps, in listing order. */
  function WhereGitFileMatches(files: seq<string>, p: string): (r: Result<seq<string>, PatternError>)
    ensures r.Err? <==> Parse(p).Err?
    ensures r.Err? ==> r.error == Parse(p).error
    ensures r.Ok? ==> IsSubsequence(r.value, files)
    ensures r.Ok? ==> forall x :: multiset(r.value)[x] == if Keeps(Parse(p).value, x) then multiset(files)[x] else 0
  {
    match Parse(p)
    case Err(e) => Err(e)
    case Ok(m) => Ok(Filter(files, path => Keeps(m, path)))
  }

  /** The older pattern analysis is the current one with the affix halves
      lowercased. */
  lemma ParseLowersHalves(p: string)
    ensures match Wildcard.Parse(p)
            case Ok(Affix(s, e)) => Parse(p) == Ok(Affix(Lower(s), Lower(e)))
            case other => Parse(p) == other
  {
    if |p| > 0 && !(p[0] == Star && p[|p| - 1] == Star) {
      SplitLowersHalves(p);
    }
  }

  lemma SplitLowersHalves(p: string)
    ensures match Wildcard.ParseSplit(p)
            case Ok(Affix(s, e)) => ParseSplit(p) == Ok(Affix(Lower(s), Lower(e)))
            case other => ParseSplit(p) == other
  {
    var w := IndexOf(p, Star);
    if w == LastIndexOf(p, Star) {
      LoweredHalves(p, w);
      if w < 0 {
        assert Wildcard.ParseSplit(p) == Ok(Affix(p, p));
        assert ParseSplit(p) == Ok(Affix(Lower(p), Lower(p)));
      } else {
        assert Wildcard.ParseSplit(p) == Ok(Affix(p[..w], p[w + 1..]));
        assert ParseSplit(p) == Ok(Affix(Lower(p)[..w], Lower(p)[w + 1..]));
      }
    }
  }

  /** With ASCII case folding, lowercasing both sides and comparing ordinally
      filters exactly as comparing ignoring case: the older filter and the
      current one return the same result for every listing and pattern. */
  lemma AgreesWithCurrent(files: seq<string>, p: string)
    ensures WhereGitFileMatches(files, p) == Wildcard.WhereGitFileMatches(files, p)
  {
    ParseLowersHalves(p);
    match Wildcard.Parse(p)
    case Err(_) =>
    case Ok(m) =>
      var m' := Parse(p).value;
      forall x: string ensures Keeps(m', x) == Wildcard.Keeps(m, x) {
        if m.Affix? {
          LowerIdempotent(m.starts);
          LowerIdempotent(m.ends);
        }
      }
      FilterCongruence(files, path => Keeps(m', path), path => Wildcard.Keeps(m, path));
  }
}

=== FILE: patterns.dfy ===
/** Vocabulary shared by both versions of the wildcard list filter: the
    shapes a search pattern can take and the matchers they compile to. */
module Patterns {
  import opened Text

  const Star := '*'

  /** The message of the `FormatException` the filter throws. */
  const SimplePatternsMessage := "List filtering works with simple patterns such as: ab*, a*b, *bc, and *b*"

  /** The exceptions a search can raise: `FormatException` from the wildcard
      filter, `IndexOutOfRangeException` from indexing an empty pattern, and
      `ArgumentException` from compiling an invalid regular expression. */
  datatype PatternError = FormatError(message: string) | IndexOutOfRange | InvalidRegex

  /** What a wildcard pattern filters on: a text the body must contain, or a
      prefix of the path together with a suffix of the body. */
  datatype Matcher = Substring(text: string) | Affix(starts: string, ends: string)

  /** The pattern begins and ends with `*` (the `*text*` form). */
  predicate EdgeStars(p: string) {
    |p| > 0 && p[0] == Star && p[|p| - 1] == Star
  }

  function StarCount(p: string): nat {
    multiset(p)[Star]
  }

  predicate HasNonStar(s: string) {
    exists i :: 0 <= i < |s| && s[i] != Star
  }

  /** Some `*` has a non-star character on each side of it. */
  ghost predicate HasInnerStar(p: string) {
    exists j :: 0 <= j < |p| && p[j] == Star && HasNonStar(p[..j]) && HasNonStar(p[j + 1..])
  }

  function Stars(n: nat): string {
    Repeat(Star, n)
  }

  /** `p` is `t` wrapped in runs of stars, and `t` has none. */
  ghost predicate Surrounds(p: string, t: string) {
    Star !in t && exists a: nat, b: nat :: p == Stars(a) + t + Stars(b)
  }

  /** Stripping the edge stars of a `*...*` pattern leaves a star behind
      exactly when the pattern has an inner star; otherwise the pattern is the
      remaining text wrapped in stars. */
  lemma TrimmedStarIffInnerStar(p: string)
    requires EdgeStars(p)
    ensures Star in TrimEnd(TrimStart(p, Star), Star) <==> HasInnerStar(p)
    ensures Star !in TrimEnd(TrimStart(p, Star), Star) ==> Surrounds(p, TrimEnd(TrimStart(p, Star), Star))
  {
    var u := TrimStart(p, Star);
    var t := TrimEnd(u, Star);
    var a, b := |p| - |u|, |u| - |t|;
    assert p == Stars(a) + t + Stars(b);
    if |t| > 0 {
      assert t[0] == u[0];
    }
    InnerStarOfWrapped(p, a, b, t);
  }

  /** For a text wrapped in stars whose own ends are not stars, the inner
      stars of the whole are the stars of the text. */
  lemma InnerStarOfWrapped(p: string, a: nat, b: nat, t: string)
    requires p == Stars(a) + t + Stars(b)
    requires t == [] || (t[0] != Star && t[|t| - 1] != Star)
    ensures Star in t <==> HasInnerStar(p)
  {
    if Star in t {
      var m :| 0 <= m < |t| && t[m] == Star;
      TextStarIsInner(p, a, b, t, m);
    }
    if HasInnerStar(p) {
      var j :| 0 <= j < |p| && p[j] == Star && HasNonStar(p[..j]) && HasNonStar(p[j + 1..]);
      InnerStarIsInText(p, a, b, t, j);
    }
  }

  lemma TextStarIsInner(p: string, a: nat, b: nat, t: string, m: nat)
    requires p == Stars(a) + t + Stars(b)
    requires t == [] || (t[0] != Star && t[|t| - 1] != Star)
    requires m < |t| && t[m] == Star
    ensures HasInnerStar(p)
  {
    var j := a + m;
    assert p[j] == t[m];
    assert p[..j][a] == t[0];
    assert p[j + 1..][|t| - 1 - m - 1] == t[|t| - 1];
    assert HasNonStar(p[..j]) && HasNonStar(p[j + 1..]);
  }

  lemma InnerStarIsInText(p: string, a: nat, b: nat, t: string, j: nat)
    requires p == Stars(a) + t + Stars(b)
    requires j < |p| && p[j] == Star && HasNonStar(p[..j]) && HasNonStar(p[j + 1..])
    ensures Star in t
  {
    var i :| 0 <= i < |p[..j]| && p[..j][i] != Star;
    var k :| 0 <= k < |p[j + 1..]| && p[j + 1..][k] != Star;
    NonStarInside(p, a, b, t, i);
    NonStarInside(p, a, b, t, j + 1 + k);
    assert p[j] == t[j - a];
  }

  lemma NonStarInside(p: string, a: nat, b: nat, t: string, x: nat)
    requires p == Stars(a) + t + Stars(b)
    requires x < |p| && p[x] != Star
    ensures a <= x < a + |t| && p[x] == t[x - a]
  {
  }

  /** Stripping the edge stars of `Stars(a) + t + Stars(b)` gives back `t`. */
  lemma TrimSurrounded(a: nat, b: nat, t: string)
    requires Star !in t
    ensures TrimEnd(TrimStart(Stars(a) + t + Stars(b), Star), Star) == t
  {
    var p := Stars(a) + t + Stars(b);
    if |t| > 0 {
      assert t[0] != Star && t[|t| - 1] != Star;
      assert p == Stars(a) + (t + Stars(b));
      assert (t + Stars(b))[0] == t[0];
      TrimStartOf(a, t + Stars(b));
      TrimEndOf(b, t);
    } else {
      RepeatSplit(Star, a, b);
      assert p == Stars(a + b) + "";
      TrimStartOf(a + b, "");
    }
  }

  lemma {:induction false} TrimStartOf(n: nat, s: string)
    requires s == [] || s[0] != Star
    ensures TrimStart(Stars(n) + s, Star) == s
  {
    if n > 0 {
      assert (Stars(n) + s)[1..] == Stars(n - 1) + s;
      TrimStartOf(n - 1, s);
    }
  }

  lemma {:induction false} TrimEndOf(n: nat, s: string)
    requires s == [] || s[|s| - 1] != Star
    ensures TrimEnd(s + Stars(n), Star) == s
  {
    if n > 0 {
      assert (s + Stars(n))[..|s| + n - 1] == s + Stars(n - 1);
      TrimEndOf(n - 1, s);
    } else {
      assert s + Stars(0) == s;
    }
  }
}

=== FILE: seqs.dfy ===
/** The LINQ operators the tool composes (`Where`, `Select`,
    `FirstOrDefault`), over finite sequences. */
module Seqs {
  import opened Wrappers

  /** `a` is obtained from `b` by deleting elements, keeping order. */
  ghost predicate IsSubsequence<T>(a: seq<T>, b: seq<T>)
    decreases |b|
  {
    if |a| == 0 then true
    else if |b| == 0 then false
    else (a[0] == b[0] && IsSubsequence(a[1..], b[1..])) || IsSubsequence(a, b[1..])
  }

  /** `Where`: the elements satisfying `keep`, in order, each as often as it
      occurs in `s`. */
  function Filter<T(!new)>(s: seq<T>, keep: T -> bool): (r: seq<T>)
    ensures |r| <= |s|
    ensures IsSubsequence(r, s)
    ensures forall x :: multiset(r)[x] == if keep(x) then multiset(s)[x] else 0
  {
    if |s| == 0 then []
    else
      var rest := Filter(s[1..], keep);
      assert s == [s[0]] + s[1..];
      if keep(s[0]) then
        assert ([s[0]] + rest)[1..] == rest;
        [s[0]] + rest
      else rest
  }

  /** `Select`. */
  function Map<A, B>(s: seq<A>, f: A -> B): (r: seq<B>)
    ensures |r| == |s|
    ensures forall i :: 0 <= i < |s| ==> r[i] == f(s[i])
  {
    seq(|s|, i requires 0 <= i < |s| => f(s[i]))
  }

  /** The position `FirstOrDefault(p)` stops at, if any. */
  function FirstIndexWhere<T>(s: seq<T>, p: T -> bool): (r: Option<nat>)
    ensures r.Some? ==> r.value < |s| && p(s[r.value])
    ensures r.Some? ==> forall j :: 0 <= j < r.value ==> !p(s[j])
    ensures r.None? ==> forall j :: 0 <= j < |s| ==> !p(s[j])
  {
    if |s| == 0 then None
    else if p(s[0]) then Some(0)
    else
      match FirstIndexWhere(s[1..], p)
      case None => None
      case Some(k) => Some(k + 1)
  }

  /** A subsequence of a subsequence is a subsequence. */
  lemma {:induction false} SubsequenceTransitive<T>(a: seq<T>, b: seq<T>, c: seq<T>)
    requires IsSubsequence(a, b) && IsSubsequence(b, c)
    ensures IsSubsequence(a, c)
    decreases |c|
  {
    if |a| > 0 {
      assert |b| > 0 && |c| > 0;
      if b[0] == c[0] && IsSubsequence(b[1..], c[1..]) {
        if a[0] == b[0] && IsSubsequence(a[1..], b[1..]) {
          SubsequenceTransitive(a[1..], b[1..], c[1..]);
        } else {
          SubsequenceTransitive(a, b[1..], c[1..]);
        }
      } else {
        SubsequenceTransitive(a, b, c[1..]);
      }
    }
  }

  /** A subsequence is no longer than the sequence it is taken from. */
  lemma {:induction false} SubsequenceLength<T>(a: seq<T>, b: seq<T>)
    requires IsSubsequence(a, b)
    ensures |a| <= |b|
  {
    if |a| > 0 {
      if a[0] == b[0] && IsSubsequence(a[1..], b[1..]) {
        SubsequenceLength(a[1..], b[1..]);
      } else {
        SubsequenceLength(a, b[1..]);
      }
    }
  }

  /** Filters that agree on every element select the same elements. */
  lemma {:induction false} FilterCongruence<T(!new)>(s: seq<T>, f: T -> bool, g: T -> bool)
    requires forall i :: 0 <= i < |s| ==> f(s[i]) == g(s[i])
    ensures Filter(s, f) == Filter(s, g)
  {
    if |s| > 0 {
      FilterCongruence(s[1..], f, g);
    }
  }

  /** A filter that keeps everything is the identity. */
  lemma {:induction false} FilterAll<T(!new)>(s: seq<T>, f: T -> bool)
    requires forall i :: 0 <= i < |s| ==> f(s[i])
    ensures Filter(s, f) == s
  {
    if |s| > 0 {
      FilterAll(s[1..], f);
      assert s == [s[0]] + s[1..];
    }
  }
}

=== FILE: text.dfy ===
/** The few `System.String` operations the tool relies on, compared char by
    char. The one-argument `StartsWith`/`EndsWith` of .NET compare with the
    current culture; that linguistic comparison is approximated here by the
    ordinal one. Case-insensitive comparison and `ToLower` are approximated by
    ASCII case folding. */
module Text {
  import opened Wrappers

  /** `s.StartsWith(prefix)`, compared char by char. */
  predicate StartsWith(s: string, prefix: string) {
    |prefix| <= |s| && s[..|prefix|] == prefix
  }

  /** `s.EndsWith(suffix)`, compared char by char. */
  predicate EndsWith(s: string, suffix: string) {
    |suffix| <= |s| && s[|s| - |suffix|..] == suffix
  }

  /** `s.Contains(t)`: `t` occurs in `s` as a contiguous block. */
  predicate Contains(s: string, t: string) {
    exists i :: 0 <= i <= |s| - |t| && OccursAt(s, t, i)
  }

  predicate OccursAt(s: string, t: string, i: nat)
    requires i + |t| <= |s|
  {
    s[i..i + |t|] == t
  }

  /** `Math.Max`. */
  function Max(a: int, b: int): int {
    if a < b then b else a
  }

  /** `Math.Min`. */
  function Min(a: int, b: int): int {
    if a < b then a else b
  }

  function LowerChar(c: char): char {
    if 'A' <= c <= 'Z' then (c as int + 32) as char else c
  }

  /** `s.ToLower()` restricted to ASCII letters. */
  function Lower(s: string): (r: string)
    ensures |r| == |s|
  {
    seq(|s|, i requires 0 <= i < |s| => LowerChar(s[i]))
  }

  predicate EqualsIgnoreCase(a: string, b: string) {
    Lower(a) == Lower(b)
  }

  /** `s.StartsWith(prefix, StringComparison.OrdinalIgnoreCase)`. */
  predicate StartsWithIgnoreCase(s: string, prefix: string) {
    StartsWith(Lower(s), Lower(prefix))
  }

  /** `s.EndsWith(suffix, StringComparison.OrdinalIgnoreCase)`. */
  predicate EndsWithIgnoreCase(s: string, suffix: string) {
    EndsWith(Lower(s), Lower(suffix))
  }

  function Repeat(c: char, n: nat): (r: string)
    ensures |r| == n
    ensures forall i :: 0 <= i < n ==> r[i] == c
  {
    seq(n, _ => c)
  }

  lemma RepeatSplit(c: char, m: nat, n: nat)
    ensures Repeat(c, m + n) == Repeat(c, m) + Repeat(c, n)
  {
    var whole, parts := Repeat(c, m + n), Repeat(c, m) + Repeat(c, n);
    assert forall i :: 0 <= i < |whole| ==> whole[i] == parts[i];
  }

  /** `s.IndexOf(c)`: the first position of `c`, or -1. */
  function IndexOf(s: string, c: char): (r: int)
    ensures -1 <= r < |s|
    ensures r == -1 <==> c !in s
    ensures r >= 0 ==> s[r] == c && c !in s[..r]
  {
    if |s| == 0 then -1
    else if s[0] == c then 0
    else
      var k := IndexOf(s[1..], c);
      assert s[1..][..k + 1] == s[1..k + 2] by { if k >= 0 { assert k + 2 <= |s|; } }
      if k < 0 then -1 else k + 1
  }

  /** `s.LastIndexOf(c)`: the last position of `c`, or -1. */
  function LastIndexOf(s: string, c: char): (r: int)
    ensures -1 <= r < |s|
    ensures r == -1 <==> c !in s
    ensures r >= 0 ==> s[r] == c && c !in s[r + 1..]
  {
    if |s| == 0 then -1
    else if s[|s| - 1] == c then |s| - 1
    else
      var k := LastIndexOf(s[..|s| - 1], c);
      assert k >= 0 ==> s[k + 1..] == s[..|s| - 1][k + 1..] + [s[|s| - 1]];
      k
  }

  /** `s.TrimStart(c)`: every leading `c` removed. */
  function TrimStart(s: string, c: char): (r: string)
    ensures |r| <= |s|
    ensures s == Repeat(c, |s| - |r|) + r
    ensures r == [] || r[0] != c
  {
    if |s| > 0 && s[0] == c then
      var r := TrimStart(s[1..], c);
      RepeatSplit(c, 1, |s| - 1 - |r|);
      assert Repeat(c, 1) == [c];
      assert s == [c] + s[1..];
      r
    else
      assert Repeat(c, 0) == [];
      s
  }

  /** `s.TrimEnd(c)`: every trailing `c` removed. */
  function TrimEnd(s: string, c: char): (r: string)
    ensures |r| <= |s|
    ensures s == r + Repeat(c, |s| - |r|)
    ensures r == [] || r[|r| - 1] != c
  {
    if |s| > 0 && s[|s| - 1] == c then
      var r := TrimEnd(s[..|s| - 1], c);
      RepeatSplit(c, |s| - 1 - |r|, 1);
      assert Repeat(c, 1) == [c];
      assert s == s[..|s| - 1] + [c];
      r
    else
      assert Repeat(c, 0) == [];
      s
  }

  /** `s.Replace(pat, "")`: occurrences of `pat` are removed in one
      left-to-right scan; text that a removal brings together is not
      scanned again. */
  function RemoveAll(s: string, pat: string): (r: string)
    requires |pat| > 0
    ensures |r| <= |s|
    ensures !Contains(s, pat) ==> r == s
    decreases |s|
  {
    if |s| < |pat| then s
    else if s[..|pat|] == pat then
      assert OccursAt(s, pat, 0);
      RemoveAll(s[|pat|..], pat)
    else
      var rest := RemoveAll(s[1..], pat);
      assert !Contains(s, pat) ==> !Contains(s[1..], pat) by {
        if Contains(s[1..], pat) {
          var i :| 0 <= i <= |s[1..]| - |pat| && OccursAt(s[1..], pat, i);
          assert s[i + 1..i + 1 + |pat|] == s[1..][i..i + |pat|];
          assert OccursAt(s, pat, i + 1);
        }
      }
      assert s == [s[0]] + s[1..];
      [s[0]] + rest
  }

  /** `char.IsWhiteSpace`: the Unicode White_Space characters. */
  predicate IsWhiteSpace(c: char) {
    || '\U{0009}' <= c <= '\U{000D}'
    || c == ' ' || c == '\U{0085}' || c == '\U{00A0}' || c == '\U{1680}'
    || '\U{2000}' <= c <= '\U{200A}'
    || c == '\U{2028}' || c == '\U{2029}' || c == '\U{202F}' || c == '\U{205F}' || c == '\U{3000}'
  }

  /** `string.IsNullOrWhiteSpace`; `None` stands for `null`. */
  predicate IsNullOrWhiteSpace(s: Option<string>) {
    match s
    case None => true
    case Some(t) => forall i :: 0 <= i < |t| ==> IsWhiteSpace(t[i])
  }

  lemma LowerIdempotent(s: string)
    ensures Lower(Lower(s)) == Lower(s)
  {
  }

  /** Lowering distributes over concatenation. */
  lemma LowerConcat(a: string, b: string)
    ensures Lower(a + b) == Lower(a) + Lower(b)
  {
  }

  /** The first and last positions of `c` coincide exactly when `c` occurs
      at most once. */
  lemma {:induction false} FirstIsLastIffAtMostOnce(s: string, c: char)
    ensures IndexOf(s, c) == LastIndexOf(s, c) <==> multiset(s)[c] <= 1
  {
    var i, j := IndexOf(s, c), LastIndexOf(s, c);
    if i < 0 {
      assert j < 0;
      assert multiset(s)[c] == 0;
    } else {
      assert s == s[..i] + [s[i]] + s[i + 1..];
      assert multiset(s)[c] == multiset(s[..i])[c] + 1 + multiset(s[i + 1..])[c];
      assert multiset(s[..i])[c] == 0;
      if i == j {
        assert multiset(s[i + 1..])[c] == 0;
      } else {
        assert s[i + 1..][j - i - 1] == c;
        assert c in s[i + 1..];
      }
    }
  }
}

=== FILE: transport.dfy ===
/** What the download step can report, and how a command run ends. */
module Transport {
  import opened Wrappers
  import opened FileSystem

  /** The outcome of downloading the template into the cache: the lines of
      the file, or the exception the download threw. A Flurl exception either
      comes from a call that never completed, or from a completed call with
      the response's status code (`None` when there was no response). After
      an `IOException` the command downloads once more; `retry` holds that
      second download's lines, or `None` when it threw. */
  datatype Download =
    | Fetched(lines: seq<string>)
    | WebFailure
    | HttpRequestFailure
    | IOFailure(retry: Option<seq<string>>)
    | FlurlIncomplete
    | FlurlCompleted(status: Option<int>)
    | OtherFailure

  const NotFound := 404
  const InternalServerError := 500

  /** `ex?.Call?.Response?.StatusCode ?? HttpStatusCode.InternalServerError`. */
  function StatusCode(status: Option<int>): int {
    status.GetOr(InternalServerError)
  }

  /** Why a run ended; each reason stands for the message printed. */
  datatype Reason =
    | ShowedVersion
    | Installed
    | MissingOutputDirectory
    | OutputExists
    | TemplateNotFound
    | Offline
    | CacheUnwritable
    | DownloadFailed
    | CannotWrite

  /** The exit code, the reason, and the file system afterwards. */
  datatype Exit = Exit(code: int, reason: Reason, fs: Fs)
}

=== FILE: wildcard.dfy ===
/** `IEnumerableExtensions.WhereGitFileMatches`: the wildcard list filter of
    the current version, which compares prefixes and suffixes ignoring case
    and the `*text*` form case-sensitively. */
module Wildcard {
  import opened Wrappers
  import opened Text
  import opened Seqs
  import opened GitFile
  import opened Patterns

  /** Whether a listing path survives the filter compiled from a pattern. */
  predicate Keeps(m: Matcher, path: string) {
    match m
    case Substring(text) => Contains(Body(path), text)
    case Affix(starts, ends) => StartsWithIgnoreCase(path, starts) && EndsWithIgnoreCase(Body(path), ends)
  }

  /** The pattern analysis at the head of the filter: reads the first and last
      characters (so an empty pattern throws), strips the edge stars of the
      `*text*` form, and otherwise splits at the only star. */
  function Parse(p: string): (r: Result<Matcher, PatternError>)
    ensures |p| == 0 <==> r == Err(IndexOutOfRange)
    ensures r.Err? ==> r.error != InvalidRegex
    ensures r.Err? && r.error.FormatError? <==>
              |p| > 0 && if EdgeStars(p) then HasInnerStar(p) else StarCount(p) >= 2
    ensures r.Err? && r.error.FormatError? ==> r.error.message == SimplePatternsMessage
    ensures r.Ok? && r.value.Substring? <==> EdgeStars(p) && !HasInnerStar(p)
    ensures r.Ok? && r.value.Substring? ==> Surrounds(p, r.value.text)
    ensures r.Ok? && r.value.Affix? && StarCount(p) == 0 ==> r.value.starts == p && r.value.ends == p
    ensures r.Ok? && r.value.Affix? && StarCount(p) > 0 ==>
              && p == r.value.starts + [Star] + r.value.ends
              && Star !in r.value.starts && Star !in r.value.ends
  {
    if |p| == 0 then Err(IndexOutOfRange)
    else if p[0] == Star && p[|p| - 1] == Star then ParseStarred(p)
    else ParseSplit(p)
  }

  /** The `*text*` branch: strip every leading and trailing star; a star
      left over is a format error. */
  function ParseStarred(p: string): (r: Result<Matcher, PatternError>)
    requires EdgeStars(p)
    ensures r.Err? <==> HasInnerStar(p)
    ensures r.Err? ==> r.error == FormatError(SimplePatternsMessage)
    ensures r.Ok? ==> r.value.Substring? && Surrounds(p, r.value.text)
  {
    var text := TrimEnd(TrimStart(p, Star), Star);
    TrimmedStarIffInnerStar(p);
    if Star in text then Err(FormatError(SimplePatternsMessage)) else Ok(Substring(text))
  }

  /** The other branch: split at the star when there is exactly one, use the
      whole pattern as both halves when there is none. */
  function ParseSplit(p: string): (r: Result<Matcher, PatternError>)
    ensures r.Err? <==> StarCount(p) >= 2
    ensures r.Err? ==> r.error == FormatError(SimplePatternsMessage)
    ensures r.Ok? ==> r.value.Affix?
    ensures r.Ok? && StarCount(p) == 0 ==> r.value.starts == p && r.value.ends == p
    ensures r.Ok? && StarCount(p) > 0 ==>
              && p == r.value.starts + [Star] + r.value.ends
              && Star !in r.value.starts && Star !in r.value.ends
  {
    var wildCardIndex := IndexOf(p, Star);
    FirstIsLastIffAtMostOnce(p, Star);
    if wildCardIndex != LastIndexOf(p, Star) then Err(FormatError(SimplePatternsMessage))
    else
      var cut := if wildCardIndex < 0 then |p| else wildCardIndex;
      var endStart := if wildCardIndex < 0 then 0 else wildCardIndex + 1;
      SplitHalves(p, wildCardIndex);
      Ok(Affix(p[..Max(0, cut)], p[Min(endStart, |p|)..]))
  }

  /** The halves around the only star (or the whole pattern when there is
      no star) and the star count they imply. */
  lemma SplitHalves(p: string, w: int)
    requires w < 0 ==> Star !in p
    requires w >= 0 ==> w < |p| && p[w] == Star && Star !in p[..w] && Star !in p[w + 1..]
    ensures w < 0 ==> StarCount(p) == 0 && p[..|p|] == p && p[0..] == p
    ensures w >= 0 ==> StarCount(p) > 0 && p == p[..w] + [Star] + p[w + 1..] && Star !in p[..w] && Star !in p[w + 1..]
  {
    if w < 0 {
      assert Star !in multiset(p);
    } else {
      assert p[w] in multiset(p);
      assert p == p[..w] + [Star] + p[w + 1..];
    }
  }

  /** The filter itself: the paths the pattern keeps, in listing order. */
  function WhereGitFileMatches(files: seq<string>, p: string): (r: Result<seq<string>, PatternError>)
    ensures r.Err? <==> Parse(p).Err?
    ensures r.Err? ==> r.error == Parse(p).error
    ensures r.Ok? ==> IsSubsequence(r.value, files)
    ensures r.Ok? ==> forall x :: multiset(r.value)[x] == if Keeps(Parse(p).value, x) then multiset(files)[x] else 0
  {
    match Parse(p)
    case Err(e) => Err(e)
    case Ok(m) => Ok(Filter(files, path => Keeps(m, path)))
  }

  /** A `*text*` pattern keeps exactly the paths whose body contains the
      text, compared case-sensitively. */
  lemma ContainsPattern(files: seq<string>, a: nat, b: nat, text: string)
    requires a >= 1 && b >= 1 && Star !in text
    ensures var r := WhereGitFileMatches(files, Stars(a) + text + Stars(b));
            && r.Ok?
            && IsSubsequence(r.value, files)
            && forall x :: multiset(r.value)[x] == if Contains(Body(x), text) then multiset(files)[x] else 0
  {
    var p := Stars(a) + text + Stars(b);
    assert p[0] == Star && p[|p| - 1] == Star;
    TrimSurrounded(a, b, text);
  }

  /** `*` (and any run of stars) keeps every path. */
  lemma StarsKeepEverything(files: seq<string>, n: nat)
    requires n >= 1
    ensures WhereGitFileMatches(files, Stars(n)) == Ok(files)
  {
    assert Stars(n) == Stars(n) + "" + Stars(0);
    TrimSurrounded(n, 0, "");
    forall x: string ensures Contains(Body(x), "") {
      assert OccursAt(Body(x), "", 0);
    }
    FilterAll(files, path => Keeps(Substring(""), path));
  }

  /** A pattern with one star keeps the paths that start with the part
      before it and whose body ends with the part after it, ignoring case. */
  lemma SingleWildcard(files: seq<string>, starts: string, ends: string)
    requires Star !in starts && Star !in ends
    requires starts != [] || ends != []
    ensures var r := WhereGitFileMatches(files, starts + [Star] + ends);
            && r.Ok?
            && IsSubsequence(r.value, files)
            && forall x :: multiset(r.value)[x] ==
                 if StartsWithIgnoreCase(x, starts) && EndsWithIgnoreCase(Body(x), ends)
                 then multiset(files)[x] else 0
  {
    var p := starts + [Star] + ends;
    assert p[|starts|] == Star;
    assert !EdgeStars(p) by {
      if starts != [] { assert p[0] == starts[0]; } else { assert p[|p| - 1] == ends[|ends| - 1]; }
    }
    assert StarCount(p) == 1 by {
      assert multiset(p) == multiset(starts) + multiset{Star} + multiset(ends);
    }
    var m := Parse(p).value;
    SplitAtOnlyStar(starts, ends, m.starts, m.ends);
  }

  /** A pattern without stars must be both a prefix of the path and a suffix
      of its body, ignoring case. */
  lemma NoWildcard(files: seq<string>, p: string)
    requires p != [] && Star !in p
    ensures var r := WhereGitFileMatches(files, p);
            && r.Ok?
            && IsSubsequence(r.value, files)
            && forall x :: multiset(r.value)[x] ==
                 if StartsWithIgnoreCase(x, p) && EndsWithIgnoreCase(Body(x), p)
                 then multiset(files)[x] else 0
  {
    assert Star !in multiset(p);
    assert p[0] != Star;
    assert Parse(p) == ParseSplit(p);
    assert ParseSplit(p) == Ok(Affix(p, p));
  }

  lemma SplitAtOnlyStar(s: string, e: string, s': string, e': string)
    requires Star !in s && Star !in e && Star !in s' && Star !in e'
    requires s + [Star] + e == s' + [Star] + e'
    ensures s == s' && e == e'
  {
    var p := s + [Star] + e;
    assert forall k :: 0 <= k < |s| ==> p[k] == s[k];
    assert forall k :: 0 <= k < |s'| ==> p[k] == s'[k];
    assert p[|s|] == Star && p[|s'|] == Star;
    assert |s| == |s'|;
    assert s == p[..|s|] && s' == p[..|s'|];
    assert e == p[|s| + 1..] && e' == p[|s'| + 1..];
  }
}

=== FILE: wrappers.dfy ===
/** Failure-carrying values: `Option` for the source's nullable results and
    `Result` for operations that throw. */
module Wrappers {

  datatype Option<+T> = None | Some(value: T) {
    function GetOr(default: T): T {
      match this
      case Some(v) => v
      case None => default
    }
  }

  datatype Result<+T, +E> = Ok(value: T) | Err(error: E)
}
